=== FILE: README.md ===
# Early-warning dashboard for student anxiety risk: a Dafny model

This project models the decision logic of the thesis repository Tesis_AGMD. That repository is a
school early-warning system. A Streamlit dashboard scores a student roster with a random forest
and answers Spanish questions about the result in a chat panel. Around it sit a training script,
an evaluation script, a rule-based web form and a synthetic-data generator.

What is modelled:

- **The feature codec.** It is written out three times: in app.py (`preprocesar_datos`), in
  entrenar_modelo.py and in evaluar_modelo.py. A raw record goes through these steps:
  - the sleep and diet labels go through fixed tables;
  - the two questionnaire answers and gender become 1/0 on an exact literal;
  - NaN is filled with 0 at inference and with a per-column median in the scripts;
  - eleven columns are selected in a fixed order.
  
  `Pipeline` holds the steps once. Each script is a `Recipe` of its own constants, in
  `InferenceCodec`, `Training` and `Evaluation`. `CodecAgreement` proves that the three scripts
  agree column for column, and that the two fill policies differ exactly on gaps.
- **Roster scoring** (`Scoring`). The classifier is opaque: the feature names it was fitted with,
  plus a function from a vector to a label and a probability in [0, 1].
- **The chat.**
  - `Router` is the lower-case, first-match-wins keyword router.
  - `Answers` is one aggregate per intent over the scored roster.
  - `Rendering` holds the Spanish templates. `Decimal` prints counts.
  - `Chat` holds the answer function and the append-only message history.
- **The web form's risk score** (`RiskForm`, js/script.js): points, a factor list and three bands.
- **The synthetic labelling rule** (`SyntheticLabel`, py/dataset.py).
- **The evaluation metrics** (`Metrics`): confusion counts, sensitivity, specificity, the two
  predictive values, and the "N de cada 100" truncations.

Records are `map<Column, Cell>`. `Column` enumerates the CSV columns the code reads. A `Cell` is
text, a number or NaN. An absent column is pandas' KeyError, modelled as a `Result` failure.

Choices the code makes that the model follows:

- A label outside the sleep or diet table is not mapped by `Series.map`. It becomes NaN and then 0
  after `fillna(0)`. So an unknown diet label ends as 0, not as the 2 that the table's `Others`
  key gets (app.py:96-108).
- The count answer reports only the count of label-1 records (app.py:66).
- Ties are broken arbitrarily: `sort_values` is an unstable quicksort. The model's contracts
  therefore promise only that the named record is extremal.
- The lowest-risk and incidence answers index `iloc[0]` without a guard. On an empty roster they
  raise instead of answering, which the model records as `EmptyRoster`.
- The help text suggests asking "¿Quienes tienen mas incidencias?". That question matches the
  list rule ("quienes") before the incidence rule, so it gets the top-five list
  (`Router.RouteListBeforeIncidence`).

## Model

| member | source | states |
|---|---|---|
| Schema.Headers | app.py:139-141 | one CSV header per column, in the given order |
| Frame.Lookup | app.py:99-100 | `Series.map(dict)`: a known text label gives its table value, anything else (unknown label, number, NaN) gives NaN |
| Frame.Indicator | app.py:105-107 | the 0/1 binarisation is 1 exactly on the literal, case-sensitively |
| Frame.FillMissing | app.py:108 | `fillna` keeps the columns, leaves no NaN, changes no present value, and puts the fill value in every NaN |
| Frame.Select | app.py:143-144 | selecting the feature columns succeeds iff every one is present and numeric, and then yields their values in column order; a failure names a selected column, and is a KeyError exactly when that column is absent |
| Seqs.FilterConcat | entrenar_modelo.py:13 | a row filter keeps the surviving rows in their original order |
| Pipeline.Preprocess | app.py:93-110 | fails iff one of the five rewritten columns is absent, naming an absent one; otherwise the same columns come back, rewritten ones hold the table value or indicator, the rest are filled |
| Pipeline.Encode | app.py:93-110 | encoding succeeds iff the record is encodable, gives one value per feature, and slot i is column i's feature value; a failure names a rewritten or feature column, and is a KeyError exactly when that column is absent |
| Pipeline.StudentsOnly | entrenar_modelo.py:13 | fails iff some row lacks Profession; otherwise keeps every row whose Profession is "Student" as often as the table holds it, and no other row |
| Pipeline.StudentsOnlyConcat | entrenar_modelo.py:13 | filtering a table split in two filters each part and joins the results, so the kept rows keep their order |
| Pipeline.StudentsOnlySingle | entrenar_modelo.py:13 | a single row is kept exactly when it is a Student row |
| Pipeline.EncodeAll | entrenar_modelo.py:47 | encoding a table succeeds iff every row encodes, and keeps row count and order |
| Pipeline.FeatureMatrix | entrenar_modelo.py:13-47 | a missing Profession raises KeyError; otherwise the matrix exists iff every Student row encodes, and then row i is the encoding of the i-th Student row, one value per feature |
| InferenceCodec.Encode | app.py:138-141 | a record becomes an 11-slot vector, slot i being column i of the fixed list, filled with 0; a failure names one of the 11 columns, and is a KeyError exactly when that column is absent |
| InferenceCodec.SleepSlot | app.py:96-108 | the sleep slot is 4.0/5.5/7.5/9.0/6.0 for the five labels and 0 for any other value |
| InferenceCodec.DietSlot | app.py:97-108 | the diet slot is 3/2/1/2 for the four labels and 0 (not 2) for an unknown label |
| InferenceCodec.IndicatorSlots | app.py:105-107 | gender, suicidal thoughts and family history slots are 0/1 and are 1 exactly on "Male"/"Yes" |
| InferenceCodec.LowerCaseYesIsNo | app.py:105 | a lower-case "yes" encodes as 0 |
| InferenceCodec.NumericSlots | app.py:108 | every slot of a column the maps and binarisations leave alone carries the record's number, or 0 where it is NaN |
| Training.Encode | entrenar_modelo.py:17-45 | a training row becomes the same 11-slot layout, filled with the median |
| Training.Matrix | entrenar_modelo.py:13-47 | the training matrix exists iff no row lacks Profession and every Student row encodes; row i is the training encoding of the i-th Student row, 11 wide |
| Evaluation.Matrix | evaluar_modelo.py:30-53 | the evaluation matrix exists iff no row lacks Profession and every Student row encodes; row i is that script's encoding of the i-th Student row, 11 wide |
| CodecAgreement.FillMattersOnlyOnGaps | entrenar_modelo.py:45 | two fill policies give different slot values iff the slot is NaN after mapping and the fills differ there |
| CodecAgreement.FillIrrelevantWithoutGaps | entrenar_modelo.py:45 | a record with no NaN or unmapped feature encodes the same under any fill |
| CodecAgreement.RecipesAgree | entrenar_modelo.py:17-41 | training, evaluation and inference state the same tables, literals and feature order |
| CodecAgreement.FeatureNamesAgree | entrenar_modelo.py:39-41 | the fitted and the inference feature names are the same 11 headers in the same order |
| CodecAgreement.EvaluationRebuildsTrainingMatrix | evaluar_modelo.py:25-50 | the evaluation script rebuilds exactly the training matrix |
| CodecAgreement.SameRecordsEncodable | entrenar_modelo.py:17-47 | a record encodes at training iff it encodes at inference |
| CodecAgreement.TrainingAgreesWithInference | entrenar_modelo.py:45 | with every label mapped and every value present, training and inference vectors are equal |
| CodecAgreement.TrainingDiffersOnlyOnGaps | entrenar_modelo.py:45 | a training and an inference slot differ iff the column is a gap whose median is not 0 |
| CodecAgreement.MatrixRowsMatchInference | entrenar_modelo.py:13-47 | every row of the training matrix comes from a Student row that also encodes at inference, and equals the dashboard's vector for it when none of its feature columns is a gap |
| Scoring.ScoreRows | app.py:143-144 | each record gets the classifier's label and probability on its own vector; count and order are kept; a KeyError names a feature column that some record lacks |
| Scoring.Score | app.py:93-144 | scoring succeeds iff the fitted names match, the roster is non-empty and every record encodes; no partial roster is returned. Errors come in the dashboard's order: KeyError on the first absent column in the read order, then the feature-name mismatch, then no samples, then a non-numeric cell |
| Scoring.FirstAbsent | app.py:99-143 | the first column of the list (the lookups of lines 99-107, then the selection of line 143) that some record lacks; none iff every listed column is present |
| Scoring.OnlyNotNumericLeft | app.py:143 | with every column present, a record can fail to encode only on a non-numeric cell |
| Scoring.AbsentColumnUnencodable | app.py:143 | a roster lacking a column the dashboard reads holds a record that does not encode |
| Scoring.FittedForestAccepted | app.py:139-144 | a forest fitted on the training features is never rejected for its schema |
| Scoring.EncodableIsQueryable | app.py:72-77 | a record that encodes has the columns the incidence query reads, with no text pressure |
| Scoring.ScoredRowsAreQueryable | app.py:72-79 | a scored roster is non-empty and every row can be asked the incidence query |
| Router.LowerChar | app.py:37 | ASCII upper-case letters map to lower case, everything else is kept |
| Router.Lower | app.py:37 | lower-casing keeps the length and lowers each character |
| Router.FirstRule | app.py:43-84 | first match wins: no earlier rule matches, the chosen one does, and none means no rule matches |
| Router.RouteByFirstMatch | app.py:43-84 | a question whose first matching rule is rule k gets rule k's intent |
| Router.Route | app.py:37-84 | the intent is Help iff no rule matches the lower-cased question, and otherwise belongs to the first matching rule |
| Router.LowerIdempotent | app.py:37 | lower-casing twice is lower-casing once |
| Router.RouteIgnoresCase | app.py:37 | routing sees the question only up to letter case |
| Router.RouteMostAtRisk | app.py:43 | "¿Quien es el mas riesgoso?" asks for the highest risk |
| Router.RouteCount | app.py:64 | "¿Cuantos alumnos estan en riesgo?" asks for the count |
| Router.RouteGreeting | app.py:84-90 | "hola" gets the help text |
| Router.RouteListBeforeIncidence | app.py:55-90 | the help text's "¿Quienes tienen mas incidencias?" matches the incidence rule but routes to the list |
| Answers.AtRisk | app.py:40 | the at-risk subset holds each label-1 record as often as the roster does, and nothing else |
| Answers.Incidence | app.py:72-77 | the incidence score counts the factors shown, so it lies in 0..4 |
| Answers.HighestRiskReply | app.py:43-46 | with no label-1 record, the fixed message; otherwise a label-1 record whose probability no label-1 record exceeds |
| Answers.LowestRiskReply | app.py:49-52 | on a non-empty roster, a record of any label whose probability is at most every record's; empty raises |
| Answers.RiskListReply | app.py:55-61 | with no label-1 record, the fixed message; otherwise min(5, count) label-1 records in non-increasing probability, none left out with a higher one |
| Answers.TopPrefix | app.py:57 | the first k of the sorted at-risk records are at-risk, sorted, and dominate the rest |
| Answers.RiskCountReply | app.py:64-66 | the count is the number of label-1 records, zero iff there are none |
| Answers.TopIncidenceReply | app.py:69-81 | on a non-empty roster, a record of any label with the maximal incidence score; empty raises |
| Answers.Synthesize | app.py:43-90 | each intent gets exactly its own branch's reply; only lowest-risk and incidence fail, and only on an empty roster |
| Decimal.Show | app.py:66 | a count prints as digits with no leading zero |
| Decimal.ValueOfShow | app.py:66 | reading the printed digits back gives the count |
| Decimal.ShowInjective | app.py:80-81 | different counts print differently |
| Rendering.ListShowsEveryEntry | app.py:58-60 | every listed record's "1. **name** (pct)" line is in the list text |
| Rendering.MostAtRiskText | app.py:46 | the highest-risk text shows the student's name in bold, the DNI, and the probability in bold |
| Rendering.MostStableText | app.py:52 | the lowest-risk text shows the student's name and the minimal probability, both in bold |
| Rendering.TopFiveText | app.py:57-61 | the list text is the heading followed by one line per listed record, in the order of the entries |
| Rendering.ListLinesConcat | app.py:58-60 | the lines of a joined list are the lines of its parts, one after the other |
| Rendering.CountText | app.py:66 | the count text shows the count in bold |
| Rendering.MostIncidentsText | app.py:80-81 | the incidence text shows the student's name in bold and the bold "N factores criticos" count |
| Rendering.Render | app.py:44-90 | every answer is non-empty |
| Rendering.RenderNamesStudent | app.py:46-81 | the highest-risk, lowest-risk and incidence answers show the student's name in bold; the highest-risk one also the DNI; both risk answers the record's probability in bold; the incidence one the bold count of factors |
| Rendering.RenderShowsCount | app.py:66 | the count answer shows the count in bold |
| Rendering.RenderListsEntries | app.py:57-61 | the list answer is the heading followed by the listed records' lines in ranking order, so it holds every one of them |
| Chat.Answer | app.py:33-90 | answering fails iff the roster is empty and the question routes to lowest risk or incidence; answers are non-empty |
| Chat.AnswerIgnoresCase | app.py:37 | the answer depends on the question only up to letter case |
| Chat.ScoredRosterAlwaysAnswers | app.py:143-192 | on the roster the dashboard scored, every question is answered |
| Chat.AnswerNamesHighestRisk | app.py:43-46 | with a label-1 record, the highest-risk answer shows the bold name, the DNI and the bold probability of a label-1 record whose probability no label-1 record exceeds |
| Chat.AnswerNoCriticalRisk | app.py:43-44 | with no label-1 record, the highest-risk answer is the fixed no-critical-risk message |
| Chat.AnswerNamesLowestRisk | app.py:49-52 | on a non-empty roster, the lowest-risk answer shows the bold name and the bold probability of a record of any label with the smallest probability |
| Chat.AnswerNothingToList | app.py:55-56 | with no label-1 record, the list answer is the fixed nothing-to-list message |
| Chat.AnswerListsTopFive | app.py:55-61 | with a label-1 record, the list answer is the heading followed by the lines of the list branch's entries, in ranking order |
| Chat.AnswerCountsAtRisk | app.py:64-66 | the count answer shows in bold the number of label-1 records |
| Chat.AnswerNamesTopIncidence | app.py:69-81 | on a non-empty roster, the incidence answer shows in bold the name of a record with the most factors, and that number of factors |
| Chat.AnswerHelp | app.py:84-90 | a question no rule matches gets the help text |
| Chat.Start | app.py:180-181 | a session starts with the assistant's greeting alone |
| Chat.Session | app.py:180-194 | the history after submitting the questions in order: it opens with the greeting, holds at most two messages per question, and no message is blank |
| Chat.TurnKeepsNoBlank | app.py:186-194 | a turn records only the non-empty question and a non-empty answer |
| Chat.Turn | app.py:187-194 | an empty question changes nothing; otherwise the user's message is appended, followed by exactly the computed answer when it succeeds and by nothing when it raises |
| Chat.Record | app.py:187-194 | given the outcome of computing the answer, the history only grows, by the user's message and then the answer text when there is one |
| Chat.TurnKeepsWellFormed | app.py:187-194 | on a non-empty roster each turn keeps greeting-first, alternating, answer-last |
| Chat.FailedTurnLeavesQuestionUnanswered | app.py:188-193 | on an empty roster a lowest-risk or incidence question is left without an answer |
| Chat.SessionWellFormed | app.py:180-194 | on a non-empty roster a session is greeting-first, alternating, answer-last |
| Chat.SessionLength | app.py:180-194 | on a non-empty roster a session holds the greeting plus two messages per non-empty question |
| Chat.SessionIsAppendOnly | app.py:180-194 | an earlier history is always a prefix of a later one |
| RiskForm.Band | js/script.js:88-106 | scores above 50 are high, 20 to 50 moderate, below 20 low |
| RiskForm.BandMonotone | js/script.js:88-106 | a higher score is never in a milder band |
| RiskForm.CardNamesBand | js/script.js:88-105 | the card's title is HIGH/MODERATE/LOW RISK exactly for scores above 50, from 20 to 50, and below 20; each band has its own message |
| RiskForm.Contribution | js/script.js:58-83 | a rule adds a positive amount exactly when it fires |
| RiskForm.Run | js/script.js:55-83 | the factor list is the fired rules in rule order, and the score is their points; score 0 iff nothing fired |
| RiskForm.Assess | js/script.js:55-106 | at most five factors, exactly the fired rules, a score of at least 0 that is their points, and the band of that score |
| RiskForm.FactorList | js/script.js:56-83 | one list item per fired rule, in rule order, at most five |
| RiskForm.RunIsSum | js/script.js:55-83 | the score is the sum of the rules' contributions |
| RiskForm.SumOfRules | js/script.js:55-83 | the score is 50·[gad7>10] + 20·[gpa<11] + 15·[attendance<85] + 15·[history] + 5·failed when positive |
| RiskForm.GadAloneIsModerate | js/script.js:58-99 | the anxiety screen alone scores exactly 50, which is moderate, and the card is titled MODERATE RISK |
| RiskForm.ContributionMonotone | js/script.js:58-83 | worse inputs never lower a rule's contribution |
| RiskForm.AssessMonotone | js/script.js:55-106 | worse inputs never lower the score or the band |
| SyntheticLabel.Score | py/dataset.py:29-33 | the internal score lies in 0..12, at least 5 when the screen is high and at most 7 when not |
| SyntheticLabel.Label | py/dataset.py:28-36 | the label is 0 or 1 |
| SyntheticLabel.LabelRule | py/dataset.py:29-36 | label 1 iff a high screen, or a history with a low average or many tardies |
| SyntheticLabel.HighGadForcesRisk | py/dataset.py:30-36 | a screen of 10 or more forces label 1 |
| SyntheticLabel.AcademicSignalsAloneAreNotEnough | py/dataset.py:31-36 | a low average and many tardies without history score 4, label 0 |
| SyntheticLabel.LabelMonotone | py/dataset.py:29-36 | passing more tests never lowers the score or the label |
| Metrics.Tally | evaluar_modelo.py:67-68 | each confusion cell counts the positions with that true/predicted pair; the cells add up to the sample count |
| Metrics.Confusion | evaluar_modelo.py:67-68 | unpacking succeeds iff the lengths agree and both classes occur, and then the cells are the pair counts |
| Metrics.Sensitivity | evaluar_modelo.py:72 | defined iff tp+fn > 0, then in [0,1] and equal to tp/(tp+fn) |
| Metrics.Specificity | evaluar_modelo.py:73 | defined iff tn+fp > 0, then in [0,1] and equal to tn/(tn+fp) |
| Metrics.Vpp | evaluar_modelo.py:74 | in [0,1]; tp/(tp+fp) when tp+fp > 0, else 0 |
| Metrics.Vpn | evaluar_modelo.py:75 | in [0,1]; tn/(tn+fn) when tn+fn > 0, else 0 |
| Metrics.Truncate | evaluar_modelo.py:93-94 | `int()` of a real truncates toward zero |
| Metrics.PerHundred | evaluar_modelo.py:93-94 | `int(rate*100)` fails on NaN, truncates toward zero, and lies in 0..100 for a rate in [0,1] |
| Metrics.Interpretation | evaluar_modelo.py:93-94 | both sentences print iff both rates are defined; the figures are `int(sensitivity*100)` and `int(specificity*100)`, each the rate times 100 truncated, in 0..100 |
| Metrics.SomeRateDefined | evaluar_modelo.py:67-73 | on an unpackable matrix at least one of sensitivity and specificity is defined |
| Metrics.PerfectHasNoErrors | evaluar_modelo.py:67-68 | perfect predictions leave both off-diagonal cells empty |
| Metrics.DiagonalScores | evaluar_modelo.py:72-94 | a diagonal matrix with both classes scores 1 on every rate and 100 in both sentences |
| Metrics.PerfectScores | evaluar_modelo.py:67-94 | perfect predictions over both classes score 1 on every rate and 100 in both sentences |

## Left out

- The Streamlit UI is not modelled: layout, sidebar, logo, metric widgets, the table, the spinner and `time.sleep`. It is presentation and I/O. This includes the prevalence widget at app.py:156.
- Loading and caching are not modelled: `joblib`, `read_csv`, the file-existence checks and writing `resultados_auditoria.txt`. This is I/O.
- The random forest, `train_test_split`, `accuracy_score` and `classification_report` are foreign sklearn calls. The classifier is an abstract function. The target column and the train/test split are not modelled.
- Rendering.Render: the `:.1%` float formatting is the abstract parameter `pct`.
- Router.Lower: it lower-cases ASCII letters only. Python's `str.lower` also maps non-ASCII capitals, including the rare ones that lower to ASCII letters.
- Scoring.Score: records are rows of a map, so an empty roster has no columns to miss. On an empty roster the model reports the feature-name mismatch or `NoSamples`, where pandas would first raise KeyError for a column absent from the CSV header.
- Frame.Select: a numeric string in a feature column is a `NotNumeric` failure. sklearn would convert it to a float.
- Pipeline.FeatureMatrix: the per-column median is a parameter. Two things are not modelled: pandas computing it only over numeric columns, and a column that is all NaN staying NaN.
- Answers.HighestRiskReply, Answers.LowestRiskReply, Answers.RiskListReply and Answers.TopIncidenceReply do not pin a tie-break. This is deliberate, because `sort_values` uses an unstable sort.
- Answers.Incidence: an absent column, or text in Academic Pressure, counts as the factor not shown. pandas would raise KeyError or TypeError there. Scoring.ScoredRowsAreQueryable shows that neither occurs on a scored roster.
- Metrics.Sensitivity, Metrics.Specificity, Metrics.Vpp and Metrics.Vpn: the rates are exact reals. Binary floating-point rounding is not modelled. For example, `int(0.29*100)` is 28 in Python.
- Metrics: `accuracy_score` and the `:.2%`/`:.4f` report lines are left out. They are foreign calls and float formatting.
- RiskForm: `parseInt`/`parseFloat` on bad input (NaN) is not modelled, nor are the DOM updates, the CSS classes, the icons or the recommendation paragraphs.
- SyntheticLabel: the random data generation in py/dataset.py:6-24 is left out. It is randomness, not a rule.
- py/modelo.py is not part of this model. It is hard-coded toy data fed to a foreign classifier, plus prints.

=== FILE: answers.dfy ===
/** The chat's answer synthesizer (app.py, `procesar_pregunta_ia`, lines 39-90):
    one aggregate over the scored roster per intent, then a fixed Spanish
    template. Percentages are rendered by `pct`, which stands for Python's
    `:.1%` float formatting. */
module Answers {
  import opened Wrappers
  import opened Schema
  import opened Frame
  import opened Scoring
  import opened Router
  import Seqs

  datatype Reply =
    | NoCriticalRisk
    | MostAtRisk(top: Scored)
    | MostStable(top: Scored)
    | NothingToList
    | TopFive(entries: seq<Scored>)
    | AtRiskCount(count: nat)
    | MostIncidents(top: Scored, incidents: nat)
    | HelpText

  /** `iloc[0]` on an empty frame raises IndexError. */
  datatype ChatError = EmptyRoster

  function Probability(s: Scored): real {
    s.probability
  }

  predicate IsAtRisk(s: Scored) {
    s.diagnosis == 1
  }

  /** `df[df['Diagnostico_IA'] == 1]`. */
  function AtRisk(roster: seq<Scored>): (r: seq<Scored>)
    ensures |r| <= |roster|
    ensures forall s :: s in r <==> s in roster && IsAtRisk(s)
    ensures forall s :: multiset(r)[s] == if IsAtRisk(s) then multiset(roster)[s] else 0
  {
    var r := Seqs.Filter(roster, IsAtRisk);
    forall s ensures s in r <==> s in roster && IsAtRisk(s) {
      Seqs.FilterMembership(roster, IsAtRisk, s);
    }
    r
  }

  // ----- the four incidence factors of one raw row -----

  datatype Factor = SuicidalFlag | FamilyFlag | PressureFlag | DietFlag

  const Factors: seq<Factor> := [SuicidalFlag, FamilyFlag, PressureFlag, DietFlag]

  /** Whether the raw row shows factor `f`: a "Yes" answer, a pressure of at
      least 4 (the comment in the source says above 4; the code tests `>= 4`),
      or an "Unhealthy" diet. */
  predicate Shows(row: Row, f: Factor) {
    match f
    case SuicidalFlag => SuicidalThoughts in row && row[SuicidalThoughts] == Text("Yes")
    case FamilyFlag => FamilyHistory in row && row[FamilyHistory] == Text("Yes")
    case PressureFlag => AcademicPressure in row && row[AcademicPressure].Num? && row[AcademicPressure].num >= 4.0
    case DietFlag => DietaryHabits in row && row[DietaryHabits] == Text("Unhealthy")
  }

  function Bit(b: bool): nat {
    if b then 1 else 0
  }

  /** The 'Incidencias' column: the four 0/1 terms added up. */
  function Incidence(row: Row): (n: nat)
    ensures n <= 4
    ensures n == |Seqs.Filter(Factors, f => Shows(row, f))|
  {
    CountFactors(row);
    Bit(Shows(row, SuicidalFlag)) + Bit(Shows(row, FamilyFlag))
      + Bit(Shows(row, PressureFlag)) + Bit(Shows(row, DietFlag))
  }

  /** Counting the factors shown is adding one bit per factor. */
  lemma CountFactors(row: Row)
    ensures |Seqs.Filter(Factors, f => Shows(row, f))|
      == Bit(Shows(row, SuicidalFlag)) + Bit(Shows(row, FamilyFlag))
       + Bit(Shows(row, PressureFlag)) + Bit(Shows(row, DietFlag))
  {
    var p := f => Shows(row, f);
    var f1 := [FamilyFlag, PressureFlag, DietFlag];
    var f2 := [PressureFlag, DietFlag];
    var f3 := [DietFlag];
    assert Factors[1..] == f1 && f1[1..] == f2 && f2[1..] == f3 && f3[1..] == [];
    assert |Seqs.Filter(f3, p)| == Bit(Shows(row, DietFlag));
    assert |Seqs.Filter(f2, p)| == Bit(Shows(row, PressureFlag)) + |Seqs.Filter(f3, p)|;
    assert |Seqs.Filter(f1, p)| == Bit(Shows(row, FamilyFlag)) + |Seqs.Filter(f2, p)|;
  }

  function IncidenceOf(s: Scored): real {
    Incidence(s.student.row) as real
  }

  // ----- one function per branch -----

  /** Branch 1: the label-1 record with the highest probability. */
  function HighestRiskReply(roster: seq<Scored>): (r: Reply)
    ensures r.NoCriticalRisk? || r.MostAtRisk?
    ensures r.NoCriticalRisk? <==> forall s :: s in roster ==> !IsAtRisk(s)
    ensures r.MostAtRisk? ==> r.top in roster && IsAtRisk(r.top)
    ensures r.MostAtRisk? ==> forall s :: s in roster && IsAtRisk(s) ==> s.probability <= r.top.probability
  {
    var risky := AtRisk(roster);
    if |risky| == 0 then NoCriticalRisk
    else
      var k := Seqs.ArgMax(risky, Probability);
      assert forall s :: s in risky ==> Probability(s) <= Probability(risky[k]);
      MostAtRisk(risky[k])
  }

  /** Branch 2: over all records, whatever their label, the lowest probability. */
  function LowestRiskReply(roster: seq<Scored>): (r: Result<Reply, ChatError>)
    ensures r.Success? <==> |roster| > 0
    ensures r.Success? ==> r.value.MostStable? && r.value.top in roster
    ensures r.Success? ==> forall s :: s in roster ==> r.value.top.probability <= s.probability
  {
    if |roster| == 0 then Failure(EmptyRoster)
    else
      var k := Seqs.ArgMin(roster, Probability);
      assert forall s :: s in roster ==> Probability(roster[k]) <= Probability(s);
      Success(MostStable(roster[k]))
  }

  function Min(a: nat, b: nat): nat {
    if a <= b then a else b
  }

  /** Branch 3: the first five label-1 records by non-increasing probability. */
  function RiskListReply(roster: seq<Scored>): (r: Reply)
    ensures r.NothingToList? || r.TopFive?
    ensures r.NothingToList? <==> forall s :: s in roster ==> !IsAtRisk(s)
    ensures r.TopFive? ==> 0 < |r.entries| == Min(5, |AtRisk(roster)|)
    ensures r.TopFive? ==> forall s :: s in r.entries ==> s in roster && IsAtRisk(s)
    ensures r.TopFive? ==> Seqs.SortedDesc(r.entries, Probability)
    ensures r.TopFive? ==> multiset(r.entries) <= multiset(AtRisk(roster))
    ensures r.TopFive? ==> forall s :: s in multiset(AtRisk(roster)) - multiset(r.entries) ==>
      s.probability <= r.entries[|r.entries| - 1].probability
  {
    var risky := AtRisk(roster);
    if |risky| == 0 then NothingToList
    else
      var sorted := Seqs.SortDesc(risky, Probability);
      var n := Min(5, |sorted|);
      TopPrefix(roster, sorted, n);
      TopFive(sorted[..n])
  }

  /** The first `n` of the at-risk records sorted by probability are at-risk
      records of the roster, still sorted, and dominate the ones left out. */
  lemma TopPrefix(roster: seq<Scored>, sorted: seq<Scored>, n: nat)
    requires multiset(sorted) == multiset(AtRisk(roster))
    requires Seqs.SortedDesc(sorted, Probability)
    requires 0 < n <= |sorted|
    ensures forall s :: s in sorted[..n] ==> s in roster && IsAtRisk(s)
    ensures Seqs.SortedDesc(sorted[..n], Probability)
    ensures multiset(sorted[..n]) <= multiset(AtRisk(roster))
    ensures forall s :: s in multiset(AtRisk(roster)) - multiset(sorted[..n]) ==>
      s.probability <= sorted[..n][n - 1].probability
  {
    var top := sorted[..n];
    Seqs.PrefixDominates(sorted, n, Probability);
    Seqs.SplitMultiset(sorted, n);
    forall s | s in top ensures s in roster && IsAtRisk(s) {
      assert s in multiset(top);
      assert s in multiset(AtRisk(roster));
    }
  }

  /** Branch 4: how many records carry label 1. */
  function RiskCountReply(roster: seq<Scored>): (r: Reply)
    ensures r.AtRiskCount?
    ensures r.count <= |roster|
    ensures r.count == 0 <==> forall s :: s in roster ==> !IsAtRisk(s)
    ensures r.count == |AtRisk(roster)|
  {
    var risky := AtRisk(roster);
    if |risky| > 0 then
      assert risky[0] in risky;
      AtRiskCount(|risky|)
    else
      AtRiskCount(0)
  }

  /** Branch 5: over all records, the one showing the most incidence factors. */
  function TopIncidenceReply(roster: seq<Scored>): (r: Result<Reply, ChatError>)
    ensures r.Success? <==> |roster| > 0
    ensures r.Success? ==> r.value.MostIncidents? && r.value.top in roster
    ensures r.Success? ==> r.value.incidents == Incidence(r.value.top.student.row) <= 4
    ensures r.Success? ==> forall s :: s in roster ==> Incidence(s.student.row) <= r.value.incidents
  {
    if |roster| == 0 then Failure(EmptyRoster)
    else
      var k := Seqs.ArgMax(roster, IncidenceOf);
      assert forall s :: s in roster ==> IncidenceOf(s) <= IncidenceOf(roster[k]);
      Success(MostIncidents(roster[k], Incidence(roster[k].student.row)))
  }

  /** The branch the intent selects. Only the two `iloc[0]` branches can fail,
      and only on an empty roster. */
  function Synthesize(intent: Intent, roster: seq<Scored>): (r: Result<Reply, ChatError>)
    ensures r.Failure? <==> |roster| == 0 && (intent == LowestRisk || intent == TopIncidence)
    ensures r.Success? ==> match intent
      case HighestRisk => r.value.NoCriticalRisk? || r.value.MostAtRisk?
      case LowestRisk => r.value.MostStable?
      case RiskList => r.value.NothingToList? || r.value.TopFive?
      case RiskCount => r.value.AtRiskCount?
      case TopIncidence => r.value.MostIncidents?
      case Help => r.value.HelpText?
    ensures intent == HighestRisk ==> r == Success(HighestRiskReply(roster))
    ensures intent == LowestRisk ==> r == LowestRiskReply(roster)
    ensures intent == RiskList ==> r == Success(RiskListReply(roster))
    ensures intent == RiskCount ==> r == Success(RiskCountReply(roster))
    ensures intent == TopIncidence ==> r == TopIncidenceReply(roster)
  {
    match intent
    case HighestRisk => Success(HighestRiskReply(roster))
    case LowestRisk => LowestRiskReply(roster)
    case RiskList => Success(RiskListReply(roster))
    case RiskCount => Success(RiskCountReply(roster))
    case TopIncidence => TopIncidenceReply(roster)
    case Help => Success(HelpText)
  }
}

=== FILE: chat.dfy ===
/** The chat panel (app.py, lines 180-194): the history starts with a greeting,
    and each non-empty question appends the user's message and then the answer.
    When computing the answer raises, the user's message is already in the
    history and no answer follows it. */
module Chat {
  import opened Wrappers
  import opened Scoring
  import opened Answers
  import opened Router
  import Rendering
  import Seqs
  import Decimal

  /** `procesar_pregunta_ia`: route the question, build the reply, render it. */
  function Answer(question: string, roster: seq<Scored>, pct: real -> string): (r: Result<string, ChatError>)
    ensures r.Failure? <==> |roster| == 0 && (Route(question) == LowestRisk || Route(question) == TopIncidence)
    ensures r.Success? ==> |r.value| > 0
  {
    var reply :- Synthesize(Route(question), roster);
    Success(Rendering.Render(reply, pct))
  }

  /** The answer depends on the question only up to upper and lower case. */
  lemma AnswerIgnoresCase(question: string, roster: seq<Scored>, pct: real -> string)
    ensures Answer(Lower(question), roster, pct) == Answer(question, roster, pct)
  {
    RouteIgnoresCase(question);
  }

  /** Once the dashboard has scored its roster, no question makes the chat raise. */
  lemma ScoredRosterAlwaysAnswers(students: seq<Student>, model: Classifier, question: string, pct: real -> string)
    requires Score(students, model).Success?
    ensures Answer(question, Score(students, model).value, pct).Success?
  {
    ScoredRowsAreQueryable(students, model);
  }

  /** A successful reply is answered with its rendering. */
  lemma AnswerRendersReply(question: string, roster: seq<Scored>, pct: real -> string, reply: Reply)
    requires Synthesize(Route(question), roster) == Success(reply)
    ensures Answer(question, roster, pct) == Success(Rendering.Render(reply, pct))
  {
  }

  /** A highest-risk question on a roster with a label-1 record is answered with
      the bold name of a label-1 record whose probability no label-1 record
      exceeds, that record's DNI and its probability in bold. */
  lemma AnswerNamesHighestRisk(question: string, roster: seq<Scored>, pct: real -> string)
    requires Route(question) == HighestRisk
    requires exists s :: s in roster && IsAtRisk(s)
    ensures Answer(question, roster, pct).Success?
    ensures exists t ::
      && t in roster && IsAtRisk(t)
      && (forall s :: s in roster && IsAtRisk(s) ==> s.probability <= t.probability)
      && Contains(Answer(question, roster, pct).value, Rendering.Bold(t.student.name))
      && Contains(Answer(question, roster, pct).value, t.student.dni)
      && Contains(Answer(question, roster, pct).value, Rendering.Bold(pct(t.probability)))
  {
    var reply := HighestRiskReply(roster);
    Rendering.RenderNamesStudent(reply, pct);
  }

  /** With no label-1 record, the highest-risk question gets the fixed message. */
  lemma AnswerNoCriticalRisk(question: string, roster: seq<Scored>, pct: real -> string)
    requires Route(question) == HighestRisk
    requires forall s :: s in roster ==> !IsAtRisk(s)
    ensures Answer(question, roster, pct) == Success(Rendering.NoCriticalRiskText())
  {
  }

  /** A lowest-risk question on a non-empty roster is answered with the bold name
      of a record, of any label, whose probability is the smallest, and that
      probability in bold. */
  lemma AnswerNamesLowestRisk(question: string, roster: seq<Scored>, pct: real -> string)
    requires Route(question) == LowestRisk
    requires |roster| > 0
    ensures Answer(question, roster, pct).Success?
    ensures exists t ::
      && t in roster
      && (forall s :: s in roster ==> t.probability <= s.probability)
      && Contains(Answer(question, roster, pct).value, Rendering.Bold(t.student.name))
      && Contains(Answer(question, roster, pct).value, Rendering.Bold(pct(t.probability)))
  {
    var reply := LowestRiskReply(roster).value;
    Rendering.RenderNamesStudent(reply, pct);
  }

  /** A list question on a roster with a label-1 record is answered with the list
      heading and then the lines of the branch's entries, in ranking order: by
      the list branch's contract, min(5, count) label-1 records in
      non-increasing probability. */
  lemma AnswerListsTopFive(question: string, roster: seq<Scored>, pct: real -> string)
    requires Route(question) == RiskList
    requires exists s :: s in roster && IsAtRisk(s)
    ensures Answer(question, roster, pct).Success?
    ensures RiskListReply(roster).TopFive?
    ensures Answer(question, roster, pct).value
      == Rendering.TopFiveHeading + Rendering.ListLines(RiskListReply(roster).entries, pct)
  {
    var reply := RiskListReply(roster);
    AnswerRendersReply(question, roster, pct, reply);
    Rendering.RenderListsEntries(reply, pct, 0);
  }

  /** With no label-1 record, the list question gets the fixed message. */
  lemma AnswerNothingToList(question: string, roster: seq<Scored>, pct: real -> string)
    requires Route(question) == RiskList
    requires forall s :: s in roster ==> !IsAtRisk(s)
    ensures Answer(question, roster, pct) == Success(Rendering.NothingToListText())
  {
  }

  /** A count question is answered with the number of label-1 records, in bold. */
  lemma AnswerCountsAtRisk(question: string, roster: seq<Scored>, pct: real -> string)
    requires Route(question) == RiskCount
    ensures Answer(question, roster, pct).Success?
    ensures Contains(Answer(question, roster, pct).value, Rendering.Bold(Decimal.Show(|AtRisk(roster)|)))
  {
    Rendering.RenderShowsCount(RiskCountReply(roster), pct);
  }

  /** An incidence question on a non-empty roster is answered with the bold name
      of a record showing the most factors, and that number of factors. */
  lemma AnswerNamesTopIncidence(question: string, roster: seq<Scored>, pct: real -> string)
    requires Route(question) == TopIncidence
    requires |roster| > 0
    ensures Answer(question, roster, pct).Success?
    ensures exists t ::
      && t in roster
      && (forall s :: s in roster ==> Incidence(s.student.row) <= Incidence(t.student.row))
      && Contains(Answer(question, roster, pct).value, Rendering.Bold(t.student.name))
      && Contains(Answer(question, roster, pct).value, Rendering.FactorCount(Incidence(t.student.row)))
  {
    var reply := TopIncidenceReply(roster).value;
    Rendering.RenderNamesStudent(reply, pct);
  }

  /** A question no rule matches gets the help text. */
  lemma AnswerHelp(question: string, roster: seq<Scored>, pct: real -> string)
    requires Route(question) == Help
    ensures Answer(question, roster, pct) == Success(Rendering.HelpMessage())
  {
  }

  datatype Role = User | Assistant

  datatype Message = Message(role: Role, content: string)

  /** The greeting of app.py:181, split into short literals only to keep the
      proofs about the history within the verifier's resource limit. */
  const Greeting: string :=
    "Hola, soy tu asistente " +
      "virtual del colegio " +
      "Jose Abelardo Quiñones. " +
      "¿En que puedo ayudarte?"

  /** A history as the panel builds it when every answer succeeds: the greeting,
      then user and assistant messages alternating, ending on an answer. */
  predicate WellFormed(log: seq<Message>) {
    && |log| % 2 == 1
    && log[0] == Message(Assistant, Greeting)
    && forall k :: 1 <= k < |log| ==> log[k].role == (if k % 2 == 1 then User else Assistant)
  }

  /** The history a new session starts with. */
  function Start(): (log: seq<Message>)
    ensures |log| == 1
    ensures WellFormed(log)
  {
    [Message(Assistant, Greeting)]
  }

  /** One submission. An empty question changes nothing; otherwise the user's
      message is appended, then the answer when there is one. */
  function Turn(log: seq<Message>, question: string, roster: seq<Scored>, pct: real -> string): (r: seq<Message>)
    ensures question == "" ==> r == log
    ensures question != "" ==> |log| < |r| && r[..|log|] == log && r[|log|] == Message(User, question)
    ensures |r| == |log| + (if question == "" then 0
                            else if Answer(question, roster, pct).Success? then 2 else 1)
    ensures |r| == |log| + 2 ==> r[|log| + 1].role == Assistant && |r[|log| + 1].content| > 0
    ensures question != "" && Answer(question, roster, pct).Success? ==>
      r == log + [Message(User, question), Message(Assistant, Answer(question, roster, pct).value)]
    ensures question != "" && Answer(question, roster, pct).Failure? ==>
      r == log + [Message(User, question)]
  {
    Record(log, question, Answer(question, roster, pct))
  }

  /** The panel's bookkeeping for one submission, given the outcome of
      computing the answer. */
  function Record(log: seq<Message>, question: string, answer: Result<string, ChatError>): (r: seq<Message>)
    ensures question == "" ==> r == log
    ensures question != "" ==> |log| < |r| && r[..|log|] == log && r[|log|] == Message(User, question)
    ensures |r| == |log| + (if question == "" then 0 else if answer.Success? then 2 else 1)
    ensures |r| == |log| + 2 ==> r[|log| + 1] == Message(Assistant, answer.value)
    ensures question != "" && answer.Success? ==>
      r == log + [Message(User, question), Message(Assistant, answer.value)]
    ensures question != "" && answer.Failure? ==> r == log + [Message(User, question)]
  {
    if question == "" then log
    else
      var asked := log + [Message(User, question)];
      if answer.Success? then asked + [Message(Assistant, answer.value)] else asked
  }

  /** A user message and then an assistant message, appended to a well-formed
      history, keep it well formed. */
  lemma ExchangeKeepsWellFormed(log: seq<Message>, r: seq<Message>)
    requires WellFormed(log)
    requires |r| == |log| + 2 && r[..|log|] == log
    requires r[|log|].role == User && r[|log| + 1].role == Assistant
    ensures WellFormed(r)
  {
    forall k | 1 <= k < |r|
      ensures r[k].role == (if k % 2 == 1 then User else Assistant)
    {
      if k < |log| {
        assert r[k] == r[..|log|][k];
      }
    }
  }

  /** With a non-empty roster every answer succeeds, so a turn keeps the
      history alternating. */
  lemma TurnKeepsWellFormed(log: seq<Message>, question: string, roster: seq<Scored>, pct: real -> string)
    requires WellFormed(log)
    requires |roster| > 0
    ensures WellFormed(Turn(log, question, roster, pct))
  {
    if question != "" {
      ExchangeKeepsWellFormed(log, Turn(log, question, roster, pct));
    }
  }

  /** On an empty roster a question routed to one of the two `iloc[0]` branches
      leaves the user's message unanswered. */
  lemma FailedTurnLeavesQuestionUnanswered(log: seq<Message>, question: string, pct: real -> string)
    requires WellFormed(log)
    requires question != ""
    requires Route(question) == LowestRisk || Route(question) == TopIncidence
    ensures var r := Turn(log, question, [], pct);
      && r == log + [Message(User, question)]
      && !WellFormed(r)
  {
    var answer := Answer(question, [], pct);
    assert answer.Failure?;
    UnansweredBreaksAlternation(log, question, answer);
  }

  /** A question recorded without an answer leaves a history of even length,
      which is not well formed. */
  lemma UnansweredBreaksAlternation(log: seq<Message>, question: string, answer: Result<string, ChatError>)
    requires WellFormed(log) && question != "" && answer.Failure?
    ensures !WellFormed(Record(log, question, answer))
  {
  }

  /** The history after submitting `questions` in order: it opens with the
      greeting, grows by at most two messages per question, and never records
      a blank message. */
  function Session(questions: seq<string>, roster: seq<Scored>, pct: real -> string): (r: seq<Message>)
    ensures 1 <= |r| <= 1 + 2 * |questions|
    ensures r[0] == Message(Assistant, Greeting)
    ensures NoBlank(r)
  {
    if |questions| == 0 then
      assert Greeting[0] == 'H';
      Start()
    else
      var before := Session(questions[..|questions| - 1], roster, pct);
      var question := questions[|questions| - 1];
      TurnKeepsNoBlank(before, question, roster, pct);
      Turn(before, question, roster, pct)
  }

  /** Every message of the history has some text. */
  predicate NoBlank(log: seq<Message>) {
    forall k :: 0 <= k < |log| ==> |log[k].content| > 0
  }

  /** A turn records only the non-empty question and a non-empty answer. */
  lemma TurnKeepsNoBlank(log: seq<Message>, question: string, roster: seq<Scored>, pct: real -> string)
    requires NoBlank(log)
    ensures NoBlank(Turn(log, question, roster, pct))
  {
    var r := Turn(log, question, roster, pct);
    forall k | |log| <= k < |r| ensures |r[k].content| > 0 {
      assert r[..|log|] == log;
    }
    forall k | 0 <= k < |log| ensures |r[k].content| > 0 {
      assert r[k] == r[..|log|][k];
    }
  }

  predicate IsAsked(question: string) {
    question != ""
  }

  /** A session over a non-empty roster is well formed. */
  lemma {:induction false} SessionWellFormed(questions: seq<string>, roster: seq<Scored>, pct: real -> string)
    requires |roster| > 0
    ensures WellFormed(Session(questions, roster, pct))
  {
    if |questions| > 0 {
      var n := |questions| - 1;
      SessionWellFormed(questions[..n], roster, pct);
      TurnKeepsWellFormed(Session(questions[..n], roster, pct), questions[n], roster, pct);
    }
  }

  /** Over a non-empty roster a session holds the greeting plus two messages
      per non-empty question. */
  lemma {:induction false} SessionLength(questions: seq<string>, roster: seq<Scored>, pct: real -> string)
    requires |roster| > 0
    ensures |Session(questions, roster, pct)| == 1 + 2 * |Seqs.Filter(questions, IsAsked)|
  {
    if |questions| > 0 {
      var n := |questions| - 1;
      var before, q := questions[..n], questions[n];
      SessionLength(before, roster, pct);
      Seqs.SplitLast(questions);
      Seqs.FilterSnoc(before, q, IsAsked);
    }
  }

  /** The history only grows: the session after the first `n` questions is a
      prefix of the session after all of them. */
  lemma {:induction false} SessionIsAppendOnly(questions: seq<string>, n: nat, roster: seq<Scored>, pct: real -> string)
    requires n <= |questions|
    ensures var before := Session(questions[..n], roster, pct);
      var after := Session(questions, roster, pct);
      |before| <= |after| && after[..|before|] == before
  {
    if n < |questions| {
      var m := |questions| - 1;
      assert questions[..m][..n] == questions[..n];
      SessionIsAppendOnly(questions[..m], n, roster, pct);
    } else {
      assert questions[..n] == questions;
    }
  }
}

=== FILE: codec_agreement.dfy ===
/** Training, evaluation and inference must encode a record into the same
    11 numbers in the same order. The three scripts write their constants out
    separately, so that agreement is proved here, together with exactly where
    the fill policies (median at training, 0 at inference) make them differ. */
module CodecAgreement {
  import opened Wrappers
  import opened Schema
  import opened Frame
  import Pipeline
  import InferenceCodec
  import Training
  import Evaluation

  /** Column `c` is NaN after the table lookups: a NaN or unmapped sleep or diet
      label, or a NaN number. The three binary columns are never NaN. */
  predicate Gap(rc: Pipeline.Recipe, row: Row, c: Column)
    requires c in row
  {
    match c
    case SleepDuration => Lookup(row[c], rc.sleep) == Missing
    case DietaryHabits => Lookup(row[c], rc.diet) == Missing
    case SuicidalThoughts => false
    case FamilyHistory => false
    case Gender => false
    case _ => row[c] == Missing
  }

  /** Two fills give the same value in slot i exactly when that slot is not a
      gap or the two fills agree on its column. */
  lemma FillMattersOnlyOnGaps(rc: Pipeline.Recipe, row: Row, f1: Column -> real, f2: Column -> real, i: nat)
    requires Pipeline.Encodable(rc, row)
    requires i < |rc.features|
    ensures rc.features[i] in row
    ensures (Pipeline.Encode(rc, row, f1).value[i] != Pipeline.Encode(rc, row, f2).value[i])
        <==> (Gap(rc, row, rc.features[i]) && f1(rc.features[i]) != f2(rc.features[i]))
  {
    FeatureFill(rc, row, f1, f2, rc.features[i]);
  }

  /** The same, for one column's feature value. */
  lemma FeatureFill(rc: Pipeline.Recipe, row: Row, f1: Column -> real, f2: Column -> real, c: Column)
    requires c in row && (c in Pipeline.Transformed || !row[c].Text?)
    ensures (Pipeline.Feature(rc, row, f1, c) != Pipeline.Feature(rc, row, f2, c))
        <==> (Gap(rc, row, c) && f1(c) != f2(c))
  {
  }

  /** With no gap in any feature column, the fill is irrelevant. */
  lemma FillIrrelevantWithoutGaps(rc: Pipeline.Recipe, row: Row, f1: Column -> real, f2: Column -> real)
    requires Pipeline.Encodable(rc, row)
    requires forall c :: c in rc.features && c in row ==> !Gap(rc, row, c)
    ensures Pipeline.Encode(rc, row, f1) == Pipeline.Encode(rc, row, f2)
  {
    var v1 := Pipeline.Encode(rc, row, f1).value;
    var v2 := Pipeline.Encode(rc, row, f2).value;
    forall i | 0 <= i < |rc.features|
      ensures v1[i] == v2[i]
    {
      FillMattersOnlyOnGaps(rc, row, f1, f2, i);
    }
    assert v1 == v2;
  }

  /** The three scripts state the same tables, literals and feature order. */
  lemma RecipesAgree()
    ensures Training.Recipe == InferenceCodec.Recipe
    ensures Evaluation.Recipe == Training.Recipe
  {
  }

  /** The forest records, at fit time, the column names the dashboard hands it. */
  lemma FeatureNamesAgree()
    ensures Headers(Training.Features) == Headers(InferenceCodec.FeatureColumns)
    ensures |Headers(Training.Features)| == 11
  {
    RecipesAgree();
  }

  /** The evaluation script rebuilds exactly the training matrix. */
  lemma EvaluationRebuildsTrainingMatrix(rows: seq<Row>, median: Column -> real)
    ensures Evaluation.Matrix(rows, median) == Training.Matrix(rows, median)
  {
    RecipesAgree();
  }

  /** A record is encodable at training time exactly when it is at inference. */
  lemma SameRecordsEncodable(row: Row, median: Column -> real)
    ensures Training.Encode(row, median).Success? <==> InferenceCodec.Encode(row).Success?
  {
    RecipesAgree();
  }

  /** On a record whose labels are all mapped and whose numbers are all present,
      training and inference produce the same vector, whatever the medians. */
  lemma TrainingAgreesWithInference(row: Row, median: Column -> real)
    requires InferenceCodec.Encode(row).Success?
    requires forall c :: c in InferenceCodec.FeatureColumns && c in row ==> !Gap(InferenceCodec.Recipe, row, c)
    ensures Training.Encode(row, median) == InferenceCodec.Encode(row)
  {
    RecipesAgree();
    FillIrrelevantWithoutGaps(InferenceCodec.Recipe, row, median, InferenceCodec.Zero);
  }

  /** Slot i differs between training and inference exactly when its column is
      NaN or unmapped and that column's median is not 0. */
  lemma TrainingDiffersOnlyOnGaps(row: Row, median: Column -> real, i: nat)
    requires InferenceCodec.Encode(row).Success?
    requires i < 11
    ensures var c := InferenceCodec.FeatureColumns[i];
      c in row &&
      ((Training.Encode(row, median).value[i] != InferenceCodec.Encode(row).value[i])
        <==> (Gap(InferenceCodec.Recipe, row, c) && median(c) != 0.0))
  {
    RecipesAgree();
    FillMattersOnlyOnGaps(InferenceCodec.Recipe, row, median, InferenceCodec.Zero, i);
  }

  /** Each row of the training matrix is the vector the dashboard computes for
      the same Student row: that row also encodes at inference, and when none of
      its feature columns is a gap the two vectors are equal. */
  lemma MatrixRowsMatchInference(rows: seq<Row>, median: Column -> real, i: nat)
    requires Training.Matrix(rows, median).Success?
    requires i < |Training.Matrix(rows, median).value|
    ensures var x := Pipeline.StudentsOnly(rows).value[i];
      && InferenceCodec.Encode(x).Success?
      && ((forall c :: c in InferenceCodec.FeatureColumns && c in x ==> !Gap(InferenceCodec.Recipe, x, c)) ==>
          Training.Matrix(rows, median).value[i] == InferenceCodec.Encode(x).value)
  {
    var x := Pipeline.StudentsOnly(rows).value[i];
    SameRecordsEncodable(x, median);
    if forall c :: c in InferenceCodec.FeatureColumns && c in x ==> !Gap(InferenceCodec.Recipe, x, c) {
      TrainingAgreesWithInference(x, median);
    }
  }
}

=== FILE: decimal.dfy ===
/** Python's `str` of a non-negative int, as the chat's f-strings print counts. */
module Decimal {

  predicate IsDigit(c: char) {
    '0' <= c <= '9'
  }

  function DigitChar(d: nat): (c: char)
    requires d < 10
    ensures IsDigit(c)
  {
    (('0' as int) + d) as char
  }

  function DigitValue(c: char): (d: nat)
    requires IsDigit(c)
    ensures d < 10
  {
    (c as int) - ('0' as int)
  }

  /** Decimal digits, most significant first, no leading zero. */
  function Show(n: nat): (r: string)
    ensures |r| > 0
    ensures forall i :: 0 <= i < |r| ==> IsDigit(r[i])
    ensures r[0] == '0' ==> n == 0
  {
    if n < 10 then [DigitChar(n)] else Show(n / 10) + [DigitChar(n % 10)]
  }

  /** The number a string of digits denotes. */
  function Value(s: string): nat
    requires forall i :: 0 <= i < |s| ==> IsDigit(s[i])
  {
    if |s| == 0 then 0 else Value(s[..|s| - 1]) * 10 + DigitValue(s[|s| - 1])
  }

  /** Reading the printed digits back gives the number. */
  lemma {:induction false} ValueOfShow(n: nat)
    ensures Value(Show(n)) == n
  {
    if n >= 10 {
      var s := Show(n);
      assert s[..|s| - 1] == Show(n / 10);
      ValueOfShow(n / 10);
    }
  }

  /** Different counts print differently. */
  lemma ShowInjective(m: nat, n: nat)
    ensures Show(m) == Show(n) ==> m == n
  {
    ValueOfShow(m);
    ValueOfShow(n);
  }
}

=== FILE: evaluation.dfy ===
/** The evaluation script's preprocessing (evaluar_modelo.py), which repeats the
    training script's steps with its own copy of every constant. */
module Evaluation {
  import opened Wrappers
  import opened Schema
  import opened Frame
  import Pipeline

  const SleepMap: map<string, real> :=
    map["Less than 5 hours" := 4.0, "5-6 hours" := 5.5, "7-8 hours" := 7.5,
        "More than 8 hours" := 9.0, "Others" := 6.0]

  const DietMap: map<string, real> :=
    map["Healthy" := 3.0, "Moderate" := 2.0, "Unhealthy" := 1.0, "Others" := 2.0]

  const Features: seq<Column> :=
    [Gender, Age, AcademicPressure, Cgpa, StudySatisfaction, SleepDuration,
     DietaryHabits, SuicidalThoughts, WorkStudyHours, FinancialStress, FamilyHistory]

  const Recipe := Pipeline.Recipe(SleepMap, DietMap, "Yes", "Male", Features)

  /** The matrix `X` the held-out predictions are made on. */
  function Matrix(rows: seq<Row>, median: Column -> real): (r: Result<seq<seq<real>>, CodecError>)
    ensures Pipeline.StudentsOnly(rows).Failure? ==> r == Failure(MissingColumn(Profession))
    ensures r.Success? <==> (Pipeline.StudentsOnly(rows).Success? &&
      forall i :: 0 <= i < |Pipeline.StudentsOnly(rows).value| ==>
        Pipeline.Encodable(Recipe, Pipeline.StudentsOnly(rows).value[i]))
    ensures r.Success? ==> |r.value| == |Pipeline.StudentsOnly(rows).value|
    ensures r.Success? ==> forall i :: 0 <= i < |r.value| ==>
      r.value[i] == Pipeline.Encode(Recipe, Pipeline.StudentsOnly(rows).value[i], median).value
    ensures r.Success? ==> forall v :: v in r.value ==> |v| == 11
  {
    Pipeline.FeatureMatrix(Recipe, rows, median)
  }
}

=== FILE: frame.dfy ===
/** The few pandas column operations the preprocessing scripts use, on one row.
    A row maps column names to cells; a cell holds text, a number, or nothing (NaN).
    Every script applies its operations column-wise, so modelling one row at a
    time loses nothing except the per-column median, which the callers take as
    a parameter. */
module Frame {
  import opened Wrappers
  import opened Schema

  datatype Cell = Text(text: string) | Num(num: real) | Missing

  type Row = map<Column, Cell>

  /** KeyError on an absent column, or a cell the classifier cannot read as a number. */
  datatype CodecError = MissingColumn(column: Column) | NotNumeric(column: Column)

  /** `Series.map(dict)` on one cell: a text key of the table becomes its value;
      anything else (an unknown label, a number, NaN) becomes NaN. */
  function Lookup(cell: Cell, table: map<string, real>): (r: Cell)
    ensures r.Num? <==> cell.Text? && cell.text in table
    ensures r.Num? ==> r.num == table[cell.text]
    ensures !r.Num? ==> r == Missing
  {
    if cell.Text? && cell.text in table then Num(table[cell.text]) else Missing
  }

  /** `apply(lambda x: 1 if x == literal else 0)` on one cell: exact, case-sensitive. */
  function Indicator(cell: Cell, literal: string): (r: real)
    ensures r == 0.0 || r == 1.0
    ensures r == 1.0 <==> cell == Text(literal)
  {
    if cell == Text(literal) then 1.0 else 0.0
  }

  /** `fillna`: every NaN cell of column c becomes `fill(c)`; nothing else changes. */
  function FillMissing(row: Row, fill: Column -> real): (r: Row)
    ensures r.Keys == row.Keys
    ensures forall c :: c in row ==> r[c] != Missing
    ensures forall c :: c in row && row[c] != Missing ==> r[c] == row[c]
    ensures forall c :: c in row && row[c] == Missing ==> r[c] == Num(fill(c))
  {
    map c | c in row :: if row[c] == Missing then Num(fill(c)) else row[c]
  }

  /** `df[features]` followed by the classifier's conversion to a float matrix:
      the cells of the named columns, in the order of `cols`. */
  function Select(row: Row, cols: seq<Column>): (r: Result<seq<real>, CodecError>)
    ensures r.Success? <==> forall c :: c in cols ==> c in row && row[c].Num?
    ensures r.Success? ==> |r.value| == |cols|
    ensures r.Success? ==> forall i :: 0 <= i < |cols| ==> r.value[i] == row[cols[i]].num
    ensures r.Failure? ==> r.error.column in cols
    ensures r.Failure? ==> (r.error.MissingColumn? <==> r.error.column !in row)
  {
    if |cols| == 0 then Success([])
    else if cols[0] !in row then Failure(MissingColumn(cols[0]))
    else if !row[cols[0]].Num? then Failure(NotNumeric(cols[0]))
    else
      var rest :- Select(row, cols[1..]);
      Success([row[cols[0]].num] + rest)
  }
}

=== FILE: inference_codec.dfy ===
/** The inference-time feature codec of the dashboard (app.py, `preprocesar_datos`
    and the column list handed to the classifier). */
module InferenceCodec {
  import opened Wrappers
  import opened Schema
  import opened Frame
  import Pipeline

  /** Bucketed sleep label to representative hours. */
  const SleepTable: map<string, real> :=
    map["Less than 5 hours" := 4.0, "5-6 hours" := 5.5, "7-8 hours" := 7.5,
        "More than 8 hours" := 9.0, "Others" := 6.0]

  /** Diet label to ordinal score. */
  const DietTable: map<string, real> :=
    map["Healthy" := 3.0, "Moderate" := 2.0, "Unhealthy" := 1.0, "Others" := 2.0]

  /** The classifier's input columns, in the order the dashboard hands them over. */
  const FeatureColumns: seq<Column> :=
    [Gender, Age, AcademicPressure, Cgpa, StudySatisfaction, SleepDuration,
     DietaryHabits, SuicidalThoughts, WorkStudyHours, FinancialStress, FamilyHistory]

  const Recipe := Pipeline.Recipe(SleepTable, DietTable, "Yes", "Male", FeatureColumns)

  /** `fillna(0)`. */
  function Zero(c: Column): real {
    0.0
  }

  /** One roster record to the vector the classifier reads. */
  function Encode(row: Row): (r: Result<seq<real>, CodecError>)
    ensures r.Success? <==> Pipeline.Encodable(Recipe, row)
    ensures r.Success? ==> |r.value| == 11
    ensures r.Success? ==> forall i :: 0 <= i < 11 ==>
      r.value[i] == Pipeline.Feature(Recipe, row, Zero, FeatureColumns[i])
    ensures r.Failure? ==> r.error.column in FeatureColumns
    ensures r.Failure? ==> (r.error.MissingColumn? <==> r.error.column !in row)
  {
    assert forall c :: c in Pipeline.Transformed ==> c in FeatureColumns;
    Pipeline.Encode(Recipe, row, Zero)
  }

  /** Slot `i` of an encoded record is column `i`'s feature value. */
  lemma Slot(row: Row, i: nat)
    requires Encode(row).Success? && i < 11
    ensures FeatureColumns[i] in row
    ensures Encode(row).value[i] == Pipeline.Feature(Recipe, row, Zero, FeatureColumns[i])
  {
  }

  /** The sleep slot holds the table's hours for the five known labels and 0
      for anything else: an unknown label, a number, or NaN. */
  lemma SleepSlot(row: Row)
    requires Encode(row).Success?
    ensures var v := Encode(row).value;
      && (row[SleepDuration] == Text("Less than 5 hours") ==> v[5] == 4.0)
      && (row[SleepDuration] == Text("5-6 hours") ==> v[5] == 5.5)
      && (row[SleepDuration] == Text("7-8 hours") ==> v[5] == 7.5)
      && (row[SleepDuration] == Text("More than 8 hours") ==> v[5] == 9.0)
      && (row[SleepDuration] == Text("Others") ==> v[5] == 6.0)
      && (!(row[SleepDuration].Text? && row[SleepDuration].text in SleepTable) ==> v[5] == 0.0)
  {
    Slot(row, 5);
    assert FeatureColumns[5] == SleepDuration;
    SleepFeature(row[SleepDuration]);
  }

  lemma SleepFeature(cell: Cell)
    ensures var x := Pipeline.NumberOr(Lookup(cell, SleepTable), 0.0);
      && (cell == Text("Less than 5 hours") ==> x == 4.0)
      && (cell == Text("5-6 hours") ==> x == 5.5)
      && (cell == Text("7-8 hours") ==> x == 7.5)
      && (cell == Text("More than 8 hours") ==> x == 9.0)
      && (cell == Text("Others") ==> x == 6.0)
      && (!(cell.Text? && cell.text in SleepTable) ==> x == 0.0)
  {
  }

  /** The diet slot holds 3/2/1/2 for the four known labels; an unknown label
      ends as 0, not as the 2 that `Others` gets. */
  lemma DietSlot(row: Row)
    requires Encode(row).Success?
    ensures var v := Encode(row).value;
      && (row[DietaryHabits] == Text("Healthy") ==> v[6] == 3.0)
      && (row[DietaryHabits] == Text("Moderate") ==> v[6] == 2.0)
      && (row[DietaryHabits] == Text("Unhealthy") ==> v[6] == 1.0)
      && (row[DietaryHabits] == Text("Others") ==> v[6] == 2.0)
      && (!(row[DietaryHabits].Text? && row[DietaryHabits].text in DietTable) ==> v[6] == 0.0)
  {
    Slot(row, 6);
    assert FeatureColumns[6] == DietaryHabits;
    DietFeature(row[DietaryHabits]);
  }

  lemma DietFeature(cell: Cell)
    ensures var x := Pipeline.NumberOr(Lookup(cell, DietTable), 0.0);
      && (cell == Text("Healthy") ==> x == 3.0)
      && (cell == Text("Moderate") ==> x == 2.0)
      && (cell == Text("Unhealthy") ==> x == 1.0)
      && (cell == Text("Others") ==> x == 2.0)
      && (!(cell.Text? && cell.text in DietTable) ==> x == 0.0)
  {
  }

  /** Gender and the two questionnaire slots are 0/1 and are 1 exactly on the
      case-sensitive literals "Male" and "Yes". */
  lemma IndicatorSlots(row: Row)
    requires Encode(row).Success?
    ensures var v := Encode(row).value;
      && (v[0] == 0.0 || v[0] == 1.0) && (v[0] == 1.0 <==> row[Gender] == Text("Male"))
      && (v[7] == 0.0 || v[7] == 1.0) && (v[7] == 1.0 <==> row[SuicidalThoughts] == Text("Yes"))
      && (v[10] == 0.0 || v[10] == 1.0) && (v[10] == 1.0 <==> row[FamilyHistory] == Text("Yes"))
  {
    Slot(row, 0);
    Slot(row, 7);
    Slot(row, 10);
    assert FeatureColumns[0] == Gender && FeatureColumns[7] == SuicidalThoughts;
    assert FeatureColumns[10] == FamilyHistory;
  }

  /** A lower-case "yes" is not an affirmative answer. */
  lemma LowerCaseYesIsNo(row: Row)
    requires Encode(row).Success?
    requires row[SuicidalThoughts] == Text("yes")
    ensures Encode(row).value[7] == 0.0
  {
    IndicatorSlots(row);
  }

  /** The slots of the columns the recipe does not rewrite carry the record's
      number, or 0 for NaN. */
  lemma NumericSlots(row: Row)
    requires Encode(row).Success?
    ensures var v := Encode(row).value;
      forall i :: 0 <= i < 11 && FeatureColumns[i] !in Pipeline.Transformed ==>
        && (row[FeatureColumns[i]].Num? ==> v[i] == row[FeatureColumns[i]].num)
        && (row[FeatureColumns[i]] == Missing ==> v[i] == 0.0)
  {
    forall i | 0 <= i < 11 && FeatureColumns[i] !in Pipeline.Transformed
      ensures row[FeatureColumns[i]].Num? ==> Encode(row).value[i] == row[FeatureColumns[i]].num
      ensures row[FeatureColumns[i]] == Missing ==> Encode(row).value[i] == 0.0
    {
      Slot(row, i);
      PlainFeature(row, FeatureColumns[i]);
    }
  }

  /** A column outside the rewritten five keeps its number, or takes 0. */
  lemma PlainFeature(row: Row, c: Column)
    requires c in row && c !in Pipeline.Transformed
    ensures row[c].Num? ==> Pipeline.Feature(Recipe, row, Zero, c) == row[c].num
    ensures row[c] == Missing ==> Pipeline.Feature(Recipe, row, Zero, c) == 0.0
  {
  }
}

=== FILE: metrics.dfy ===
/** The clinical metrics of the evaluation script (evaluar_modelo.py, lines 67-94):
    the confusion counts, sensitivity, specificity, the two predictive values,
    and the "N de cada 100" figures. Rates are exact reals here. */
module Metrics {
  import opened Wrappers
  import opened Scoring

  datatype Counts = Counts(tn: nat, fp: nat, fn: nat, tp: nat)

  /** `confusion_matrix` raises on sequences of different length, and
      `tn, fp, fn, tp = cm.ravel()` raises unless both classes occur. */
  datatype MetricError = LengthMismatch | SingleClass | NotANumber

  /** How many positions hold `a` in `actual` and `p` in `predicted`. */
  function CountPairs(actual: seq<Label>, predicted: seq<Label>, a: Label, p: Label): nat
    requires |actual| == |predicted|
  {
    if |actual| == 0 then 0
    else
      var here := if actual[0] == a && predicted[0] == p then 1 else 0;
      here + CountPairs(actual[1..], predicted[1..], a, p)
  }

  /** One pass over the pairs, adding each to its cell. */
  function Tally(actual: seq<Label>, predicted: seq<Label>): (c: Counts)
    requires |actual| == |predicted|
    ensures c.tn == CountPairs(actual, predicted, 0, 0)
    ensures c.fp == CountPairs(actual, predicted, 0, 1)
    ensures c.fn == CountPairs(actual, predicted, 1, 0)
    ensures c.tp == CountPairs(actual, predicted, 1, 1)
    ensures c.tn + c.fp + c.fn + c.tp == |actual|
  {
    if |actual| == 0 then Counts(0, 0, 0, 0)
    else
      var rest := Tally(actual[1..], predicted[1..]);
      match (actual[0], predicted[0])
      case (0, 0) => rest.(tn := rest.tn + 1)
      case (0, 1) => rest.(fp := rest.fp + 1)
      case (1, 0) => rest.(fn := rest.fn + 1)
      case (1, 1) => rest.(tp := rest.tp + 1)
  }

  /** Both labels occur among the true and predicted labels together, so the
      matrix is 2x2. */
  predicate BothClasses(actual: seq<Label>, predicted: seq<Label>) {
    && (0 in actual || 0 in predicted)
    && (1 in actual || 1 in predicted)
  }

  /** `confusion_matrix(y_test, y_pred).ravel()` unpacked into four counts. */
  function Confusion(actual: seq<Label>, predicted: seq<Label>): (r: Result<Counts, MetricError>)
    ensures r.Success? <==> |actual| == |predicted| && BothClasses(actual, predicted)
    ensures |actual| != |predicted| ==> r == Failure(LengthMismatch)
    ensures r.Success? ==> r.value.tn + r.value.fp + r.value.fn + r.value.tp == |actual| > 0
    ensures r.Success? ==>
      && r.value.tp == CountPairs(actual, predicted, 1, 1)
      && r.value.tn == CountPairs(actual, predicted, 0, 0)
      && r.value.fp == CountPairs(actual, predicted, 0, 1)
      && r.value.fn == CountPairs(actual, predicted, 1, 0)
  {
    if |actual| != |predicted| then Failure(LengthMismatch)
    else if !BothClasses(actual, predicted) then Failure(SingleClass)
    else Success(Tally(actual, predicted))
  }

  /** `num / den` for numpy integers: NaN (None here) when both are 0. */
  function Ratio(num: nat, den: nat): (r: Option<real>)
    requires num <= den
    ensures r.Some? <==> den > 0
    ensures r.Some? ==> 0.0 <= r.value <= 1.0 && r.value * (den as real) == num as real
  {
    if den == 0 then None else Some(num as real / den as real)
  }

  /** Share of the truly positive that the model flags. */
  function Sensitivity(c: Counts): (r: Option<real>)
    ensures r.Some? <==> c.tp + c.fn > 0
    ensures r.Some? ==> 0.0 <= r.value <= 1.0
    ensures r.Some? ==> r.value * ((c.tp + c.fn) as real) == c.tp as real
  {
    Ratio(c.tp, c.tp + c.fn)
  }

  /** Share of the truly negative that the model clears. */
  function Specificity(c: Counts): (r: Option<real>)
    ensures r.Some? <==> c.tn + c.fp > 0
    ensures r.Some? ==> 0.0 <= r.value <= 1.0
    ensures r.Some? ==> r.value * ((c.tn + c.fp) as real) == c.tn as real
  {
    Ratio(c.tn, c.tn + c.fp)
  }

  /** The guarded ratio: 0 when nothing falls in the denominator. */
  function GuardedRatio(num: nat, den: nat): (r: real)
    requires num <= den
    ensures 0.0 <= r <= 1.0
    ensures den > 0 ==> r * (den as real) == num as real
    ensures den == 0 ==> r == 0.0
  {
    if den > 0 then num as real / den as real else 0.0
  }

  /** Positive predictive value, 0 when nothing is predicted positive. */
  function Vpp(c: Counts): (r: real)
    ensures 0.0 <= r <= 1.0
    ensures c.tp + c.fp > 0 ==> r * ((c.tp + c.fp) as real) == c.tp as real
    ensures c.tp + c.fp == 0 ==> r == 0.0
  {
    GuardedRatio(c.tp, c.tp + c.fp)
  }

  /** Negative predictive value, 0 when nothing is predicted negative. */
  function Vpn(c: Counts): (r: real)
    ensures 0.0 <= r <= 1.0
    ensures c.tn + c.fn > 0 ==> r * ((c.tn + c.fn) as real) == c.tn as real
    ensures c.tn + c.fn == 0 ==> r == 0.0
  {
    GuardedRatio(c.tn, c.tn + c.fn)
  }

  /** Python's `int(x)` on a float: the integer part, toward zero. */
  function Truncate(x: real): (n: int)
    ensures 0.0 <= x ==> n as real <= x < n as real + 1.0
    ensures x < 0.0 ==> n as real - 1.0 < x <= n as real
  {
    if x >= 0.0 then x.Floor else -((-x).Floor)
  }

  /** `int(rate * 100)`; `int` of NaN raises ValueError. */
  function PerHundred(rate: Option<real>): (r: Result<int, MetricError>)
    ensures r.Success? <==> rate.Some?
    ensures r.Success? && rate.value >= 0.0 ==>
      r.value as real <= rate.value * 100.0 < r.value as real + 1.0
    ensures r.Success? && rate.value < 0.0 ==>
      r.value as real - 1.0 < rate.value * 100.0 <= r.value as real
    ensures r.Success? && 0.0 <= rate.value <= 1.0 ==> 0 <= r.value <= 100
  {
    match rate
    case None => Failure(NotANumber)
    case Some(x) => Success(Truncate(x * 100.0))
  }

  /** The two sentences of the report: detected and cleared out of every 100. */
  function Interpretation(c: Counts): (r: Result<(int, int), MetricError>)
    ensures r.Success? <==> c.tp + c.fn > 0 && c.tn + c.fp > 0
    ensures r.Success? ==> 0 <= r.value.0 <= 100 && 0 <= r.value.1 <= 100
    ensures r.Success? ==>
      && r.value.0 == PerHundred(Sensitivity(c)).value
      && r.value.1 == PerHundred(Specificity(c)).value
    ensures r.Success? ==>
      && r.value.0 as real <= Sensitivity(c).value * 100.0 < r.value.0 as real + 1.0
      && r.value.1 as real <= Specificity(c).value * 100.0 < r.value.1 as real + 1.0
  {
    var detected :- PerHundred(Sensitivity(c));
    var cleared :- PerHundred(Specificity(c));
    Success((detected, cleared))
  }

  /** On a matrix from labels with both classes present, at least one of the two
      rates is defined. */
  lemma SomeRateDefined(actual: seq<Label>, predicted: seq<Label>)
    requires Confusion(actual, predicted).Success?
    ensures Sensitivity(Confusion(actual, predicted).value).Some?
      || Specificity(Confusion(actual, predicted).value).Some?
  {
  }

  /** Perfect predictions put nothing off the diagonal. */
  lemma {:induction false} PerfectHasNoErrors(actual: seq<Label>)
    ensures CountPairs(actual, actual, 0, 1) == 0
    ensures CountPairs(actual, actual, 1, 0) == 0
  {
    if |actual| > 0 {
      PerfectHasNoErrors(actual[1..]);
    }
  }

  /** A label that occurs in the true labels is counted on the diagonal. */
  lemma {:induction false} OccurringLabelCounted(actual: seq<Label>, l: Label)
    requires l in actual
    ensures CountPairs(actual, actual, l, l) > 0
  {
    if actual[0] != l {
      OccurringLabelCounted(actual[1..], l);
    }
  }

  /** A count over itself is the whole. */
  lemma WholeRatio(n: nat)
    requires n > 0
    ensures Ratio(n, n) == Some(1.0)
    ensures GuardedRatio(n, n) == 1.0
  {
    assert (n as real) / (n as real) == 1.0;
  }

  /** A matrix with both classes and nothing off the diagonal scores 1 on every
      rate and 100 in both sentences. */
  lemma DiagonalScores(c: Counts)
    requires c.fp == 0 && c.fn == 0 && c.tp > 0 && c.tn > 0
    ensures Sensitivity(c) == Some(1.0) && Specificity(c) == Some(1.0)
    ensures Vpp(c) == 1.0 && Vpn(c) == 1.0
    ensures Interpretation(c) == Success((100, 100))
  {
    WholeRatio(c.tp);
    WholeRatio(c.tn);
    assert PerHundred(Some(1.0)) == Success(100);
  }

  /** Perfect predictions over both classes give every rate 1 and 100 of every
      100 in both sentences. */
  lemma PerfectScores(actual: seq<Label>)
    requires 0 in actual && 1 in actual
    ensures Confusion(actual, actual).Success?
    ensures var c := Confusion(actual, actual).value;
      && Sensitivity(c) == Some(1.0) && Specificity(c) == Some(1.0)
      && Vpp(c) == 1.0 && Vpn(c) == 1.0
      && Interpretation(c) == Success((100, 100))
  {
    PerfectHasNoErrors(actual);
    OccurringLabelCounted(actual, 0);
    OccurringLabelCounted(actual, 1);
    DiagonalScores(Confusion(actual, actual).value);
  }
}

=== FILE: pipeline.dfy ===
/** The preprocessing recipe that app.py, entrenar_modelo.py and evaluar_modelo.py
    each write out in full: map the sleep and diet labels through a table,
    binarise the two questionnaire answers and gender on an exact literal, fill
    what is still NaN, and select the feature columns in a fixed order.
    The steps are the same in all three scripts; what each script states for
    itself (its tables, literals and column list) is a `Recipe`, and what it
    fills NaN with is the `fill` argument. */
module Pipeline {
  import opened Wrappers
  import opened Schema
  import opened Frame
  import Seqs

  datatype Recipe = Recipe(
    sleep: map<string, real>,
    diet: map<string, real>,
    yes: string,
    male: string,
    features: seq<Column>)

  /** The five columns the recipe rewrites before filling. */
  const Transformed: set<Column> :=
    {SleepDuration, DietaryHabits, SuicidalThoughts, FamilyHistory, Gender}

  /** The value a cell contributes once NaN has been replaced by `fallback`. */
  function NumberOr(cell: Cell, fallback: real): real {
    if cell.Num? then cell.num else fallback
  }

  /** What column `c` of `row` becomes, stated column by column: the table value
      for sleep and diet, the exact-match indicator for the answers and gender,
      the number itself elsewhere, and `fill(c)` wherever that is NaN. */
  function Feature(rc: Recipe, row: Row, fill: Column -> real, c: Column): real
    requires c in row
  {
    match c
    case SleepDuration => NumberOr(Lookup(row[c], rc.sleep), fill(c))
    case DietaryHabits => NumberOr(Lookup(row[c], rc.diet), fill(c))
    case SuicidalThoughts => Indicator(row[c], rc.yes)
    case FamilyHistory => Indicator(row[c], rc.yes)
    case Gender => Indicator(row[c], rc.male)
    case _ => NumberOr(row[c], fill(c))
  }

  /** The maps, the binarisations and the fill, in the scripts' order; the first
      rewritten column that is absent raises KeyError. */
  function Preprocess(rc: Recipe, row: Row, fill: Column -> real): (r: Result<Row, CodecError>)
    ensures r.Success? <==> Transformed <= row.Keys
    ensures r.Failure? ==> r.error.MissingColumn? && r.error.column in Transformed
    ensures r.Failure? ==> r.error.column !in row
    ensures r.Success? ==> r.value.Keys == row.Keys
    ensures r.Success? ==> forall c :: c in row && c in Transformed ==>
      r.value[c] == Num(Feature(rc, row, fill, c))
    ensures r.Success? ==> forall c :: c in row && c !in Transformed ==>
      r.value[c] == (if row[c] == Missing then Num(fill(c)) else row[c])
  {
    if SleepDuration !in row then Failure(MissingColumn(SleepDuration))
    else if DietaryHabits !in row then Failure(MissingColumn(DietaryHabits))
    else if SuicidalThoughts !in row then Failure(MissingColumn(SuicidalThoughts))
    else if FamilyHistory !in row then Failure(MissingColumn(FamilyHistory))
    else if Gender !in row then Failure(MissingColumn(Gender))
    else
      var filled := FillMissing(Rewrite(rc, row), fill);
      forall c | c in row && c in Transformed
        ensures filled[c] == Num(Feature(rc, row, fill, c))
      {
        RewrittenColumn(rc, row, fill, c);
      }
      Success(filled)
  }

  /** The two `map` calls and the three binarisations, before `fillna`. */
  function Rewrite(rc: Recipe, row: Row): (r: Row)
    requires Transformed <= row.Keys
    ensures r.Keys == row.Keys
    ensures forall c :: c in row && c !in Transformed ==> r[c] == row[c]
  {
    var mapped := row[SleepDuration := Lookup(row[SleepDuration], rc.sleep)]
                     [DietaryHabits := Lookup(row[DietaryHabits], rc.diet)];
    mapped[SuicidalThoughts := Num(Indicator(row[SuicidalThoughts], rc.yes))]
          [FamilyHistory := Num(Indicator(row[FamilyHistory], rc.yes))]
          [Gender := Num(Indicator(row[Gender], rc.male))]
  }

  /** A rewritten column, once filled, holds its feature value. */
  lemma RewrittenColumn(rc: Recipe, row: Row, fill: Column -> real, c: Column)
    requires Transformed <= row.Keys && c in Transformed
    ensures FillMissing(Rewrite(rc, row), fill)[c] == Num(Feature(rc, row, fill, c))
  {
  }

  /** A record the recipe turns into a vector: the rewritten columns and every
      feature column exist, and no feature column outside the rewritten ones
      holds text. */
  predicate Encodable(rc: Recipe, row: Row) {
    && Transformed <= row.Keys
    && forall c :: c in rc.features ==> c in row && (c in Transformed || !row[c].Text?)
  }

  /** After preprocessing, a cell is a number exactly when it is a rewritten
      column or held no text, and then it is the column's feature value. */
  lemma PreparedCell(rc: Recipe, row: Row, fill: Column -> real, c: Column)
    requires Preprocess(rc, row, fill).Success? && c in row
    ensures var cell := Preprocess(rc, row, fill).value[c];
      && (cell.Num? <==> c in Transformed || !row[c].Text?)
      && (cell.Num? ==> cell.num == Feature(rc, row, fill, c))
  {
  }

  /** Preprocessing followed by selecting the feature columns. */
  function Encode(rc: Recipe, row: Row, fill: Column -> real): (r: Result<seq<real>, CodecError>)
    ensures r.Success? <==> Encodable(rc, row)
    ensures r.Success? ==> |r.value| == |rc.features|
    ensures r.Success? ==> forall i :: 0 <= i < |rc.features| ==>
      rc.features[i] in row && r.value[i] == Feature(rc, row, fill, rc.features[i])
    ensures r.Failure? ==> r.error.column in Transformed || r.error.column in rc.features
    ensures r.Failure? ==> (r.error.MissingColumn? <==> r.error.column !in row)
  {
    var prepared :- Preprocess(rc, row, fill);
    forall c | c in row
      ensures prepared[c].Num? <==> c in Transformed || !row[c].Text?
      ensures prepared[c].Num? ==> prepared[c].num == Feature(rc, row, fill, c)
    {
      PreparedCell(rc, row, fill, c);
    }
    Select(prepared, rc.features)
  }

  /** `df[df['Profession'] == 'Student']`: the comparison itself is exact. */
  predicate IsStudent(row: Row) {
    Profession in row && row[Profession] == Text("Student")
  }

  /** The training-side row filter; KeyError when a row has no Profession column. */
  function StudentsOnly(rows: seq<Row>): (r: Result<seq<Row>, CodecError>)
    ensures r.Success? <==> Labelled(rows)
    ensures r.Failure? ==> r.error == MissingColumn(Profession)
    ensures r.Success? ==> forall x :: x in r.value <==> x in rows && IsStudent(x)
    ensures r.Success? ==> forall x ::
      multiset(r.value)[x] == if IsStudent(x) then multiset(rows)[x] else 0
  {
    if Labelled(rows) then
      var kept := Seqs.Filter(rows, IsStudent);
      forall x ensures x in kept <==> x in rows && IsStudent(x) {
        Seqs.FilterMembership(rows, IsStudent, x);
      }
      Success(kept)
    else
      Failure(MissingColumn(Profession))
  }

  /** Every row has a Profession column. */
  predicate Labelled(rows: seq<Row>) {
    forall i :: 0 <= i < |rows| ==> Profession in rows[i]
  }

  lemma LabelledConcat(a: seq<Row>, b: seq<Row>)
    ensures Labelled(a + b) <==> Labelled(a) && Labelled(b)
  {
    if Labelled(a) && Labelled(b) {
      forall i | 0 <= i < |a + b| ensures Profession in (a + b)[i] {
        if i < |a| {
          assert (a + b)[i] == a[i];
        } else {
          assert (a + b)[i] == b[i - |a|];
        }
      }
    }
    if Labelled(a + b) {
      forall i | 0 <= i < |a| ensures Profession in a[i] {
        assert a[i] == (a + b)[i];
      }
      forall i | 0 <= i < |b| ensures Profession in b[i] {
        assert b[i] == (a + b)[|a| + i];
      }
    }
  }

  /** The filter works row by row: filtering a table split in two filters each
      part, so the kept rows keep the order they had. */
  lemma StudentsOnlyConcat(a: seq<Row>, b: seq<Row>)
    ensures StudentsOnly(a + b).Success? <==> StudentsOnly(a).Success? && StudentsOnly(b).Success?
    ensures StudentsOnly(a + b).Success? ==>
      StudentsOnly(a + b).value == StudentsOnly(a).value + StudentsOnly(b).value
  {
    LabelledConcat(a, b);
    Seqs.FilterConcat(a, b, IsStudent);
  }

  /** A single row is kept exactly when it is a Student row. */
  lemma StudentsOnlySingle(x: Row)
    ensures StudentsOnly([x]).Success? <==> Profession in x
    ensures StudentsOnly([x]).Success? ==> StudentsOnly([x]).value == if IsStudent(x) then [x] else []
  {
    assert [x][1..] == [];
  }

  /** Encode every row, failing on the first row that cannot be encoded. */
  function EncodeAll(rc: Recipe, rows: seq<Row>, fill: Column -> real): (r: Result<seq<seq<real>>, CodecError>)
    ensures r.Success? <==> forall i :: 0 <= i < |rows| ==> Encodable(rc, rows[i])
    ensures r.Success? ==> |r.value| == |rows|
    ensures r.Success? ==> forall i :: 0 <= i < |rows| ==> r.value[i] == Encode(rc, rows[i], fill).value
  {
    if |rows| == 0 then Success([])
    else
      var head :- Encode(rc, rows[0], fill);
      var tail :- EncodeAll(rc, rows[1..], fill);
      Success([head] + tail)
  }

  /** Filter to students, preprocess, select the features: the matrix `X`. */
  function FeatureMatrix(rc: Recipe, rows: seq<Row>, median: Column -> real): (r: Result<seq<seq<real>>, CodecError>)
    ensures StudentsOnly(rows).Failure? ==> r == Failure(MissingColumn(Profession))
    ensures r.Success? <==> (StudentsOnly(rows).Success? &&
      forall i :: 0 <= i < |StudentsOnly(rows).value| ==> Encodable(rc, StudentsOnly(rows).value[i]))
    ensures r.Success? ==> |r.value| == |StudentsOnly(rows).value|
    ensures r.Success? ==> forall i :: 0 <= i < |r.value| ==>
      r.value[i] == Encode(rc, StudentsOnly(rows).value[i], median).value
    ensures r.Success? ==> forall v :: v in r.value ==> |v| == |rc.features|
  {
    var students :- StudentsOnly(rows);
    EncodeAll(rc, students, median)
  }
}

=== FILE: rendering.dfy ===
/** The Spanish answer texts of the chat (app.py, lines 44-90). `pct` stands for
    the `:.1%` formatting of a probability, which the model does not spell out.
    Each template is written as a concatenation of short literals rather than
    one literal per source string: the text is the same, and the short pieces
    keep the proofs about it within the verifier's resource limit. */
module Rendering {
  import opened Scoring
  import opened Answers
  import Router
  import Decimal

  /** Markdown bold, as the templates write `**...**`. */
  function Bold(s: string): string {
    "**" + s + "**"
  }

  /** Two pieces set between other text both occur in it. */
  lemma Infix2(a: string, m: string, b: string, n: string, c: string)
    ensures Router.Contains(a + m + b + n + c, m)
    ensures Router.Contains(a + m + b + n + c, n)
  {
    Infix(a, m, b + n + c);
    assert a + m + (b + n + c) == a + m + b + n + c;
    Infix(a + m + b, n, c);
  }

  /** Three pieces set between other text all occur in it. */
  lemma Infix3(a: string, m: string, b: string, n: string, c: string, o: string, d: string)
    ensures Router.Contains(a + m + b + n + c + o + d, m)
    ensures Router.Contains(a + m + b + n + c + o + d, n)
    ensures Router.Contains(a + m + b + n + c + o + d, o)
  {
    var s := a + m + b + n + c;
    Infix2(a, m, b, n, c);
    Widen("", s, o + d, m);
    Widen("", s, o + d, n);
    assert "" + s + (o + d) == s + o + d;
    Infix(s, o, d);
  }

  /** `m` occurs in any text that has it between two other pieces. */
  lemma Infix(a: string, m: string, b: string)
    ensures Router.Contains(a + m + b, m)
  {
    assert (a + m + b)[|a|..|a| + |m|] == m;
    assert Router.OccursAt(a + m + b, m, |a|);
  }

  /** An occurrence survives adding text on either side. */
  lemma Widen(a: string, s: string, b: string, m: string)
    requires Router.Contains(s, m)
    ensures Router.Contains(a + s + b, m)
  {
    var i :| 0 <= i <= |s| - |m| && Router.OccursAt(s, m, i);
    assert (a + s + b)[|a| + i..|a| + i + |m|] == s[i..i + |m|];
    assert Router.OccursAt(a + s + b, m, |a| + i);
  }

  /** One line of the top-five list. Every line is numbered "1." because the
      template writes the literal instead of a counter. */
  function ListLine(s: Scored, pct: real -> string): string {
    "1. " + Bold(s.student.name) + " (" + pct(s.probability) + ")\n"
  }

  function ListLines(entries: seq<Scored>, pct: real -> string): string {
    if |entries| == 0 then "" else ListLine(entries[0], pct) + ListLines(entries[1..], pct)
  }

  /** The lines of two lists, one after the other, are the lines of the joined
      list: the text keeps the order of the entries. */
  lemma {:induction false} ListLinesConcat(a: seq<Scored>, b: seq<Scored>, pct: real -> string)
    ensures ListLines(a + b, pct) == ListLines(a, pct) + ListLines(b, pct)
  {
    if |a| > 0 {
      assert (a + b)[0] == a[0] && (a + b)[1..] == a[1..] + b;
      ListLinesConcat(a[1..], b, pct);
    } else {
      assert a + b == b;
    }
  }

  /** Each listed record's line is in the list, in full. */
  lemma {:induction false} ListShowsEveryEntry(entries: seq<Scored>, pct: real -> string, k: nat)
    requires k < |entries|
    ensures Router.Contains(ListLines(entries, pct), ListLine(entries[k], pct))
  {
    var first := ListLine(entries[0], pct);
    var rest := ListLines(entries[1..], pct);
    assert ListLines(entries, pct) == first + rest;
    if k == 0 {
      ContainsPrefix(first, rest);
    } else {
      ListShowsEveryEntry(entries[1..], pct, k - 1);
      ContainsInSuffix(first, rest, ListLine(entries[k], pct));
    }
  }

  /** A text contains its own beginning. */
  lemma ContainsPrefix(a: string, b: string)
    ensures Router.Contains(a + b, a)
  {
    Infix("", a, b);
    assert "" + a + b == a + b;
  }

  /** What the end of a text contains, the text contains. */
  lemma ContainsInSuffix(a: string, b: string, m: string)
    requires Router.Contains(b, m)
    ensures Router.Contains(a + b, m)
  {
    Widen(a, b, "", m);
    assert a + b + "" == a + b;
  }

  /** The fixed texts of the branches that name nobody. */
  function NoCriticalRiskText(): (r: string)
    ensures |r| > 0
  {
    "No se han detectado " +
      "estudiantes en riesgo " +
      "critico actualmente."
  }

  function NothingToListText(): (r: string)
    ensures |r| > 0
  {
    "No hay estudiantes en " +
      "riesgo para listar."
  }

  function HelpMessage(): (r: string)
    ensures |r| > 0
  {
    "Soy tu asistente " +
      "virtual del colegio " +
      "Jose Abelardo Quiñones. " +
      "Estoy analizando el " +
      "padron en tiempo real. " +
      "Puedes preguntarme:\n" +
      "- ¿Quien es el mas " +
      "riesgoso?\n" +
      "- ¿Quien es el menos " +
      "riesgoso?\n" +
      "- ¿Quienes tienen mas " +
      "incidencias?\n" +
      "- ¿Cuantos alumnos " +
      "estan en alerta?"
  }

  /** Branch 1's text: the student's name in bold, then the DNI, then the
      probability in bold. */
  function MostAtRiskText(top: Scored, pct: real -> string): (r: string)
    ensures |r| > 0
    ensures Router.Contains(r, Bold(top.student.name))
    ensures Router.Contains(r, top.student.dni)
    ensures Router.Contains(r, Bold(pct(top.probability)))
  {
    var lead := "\U{1F6A8} **Atencion Prioritaria:** " +
      "El estudiante con mayor " +
      "nivel de riesgo es ";
    var mid := "), con una probabilidad " +
      "calculada del ";
    Infix3(lead, Bold(top.student.name), " (DNI: ", top.student.dni, mid, Bold(pct(top.probability)), ".");
    lead + Bold(top.student.name) + " (DNI: " + top.student.dni + mid + Bold(pct(top.probability)) + "."
  }

  /** Branch 2's text: the student's name and the minimal probability, both in
      bold. */
  function MostStableText(top: Scored, pct: real -> string): (r: string)
    ensures |r| > 0
    ensures Router.Contains(r, Bold(top.student.name))
    ensures Router.Contains(r, Bold(pct(top.probability)))
  {
    var lead := "\U{2705} El estudiante " +
      "con indicadores mas " +
      "estables es ";
    var mid := ", con una probabilidad " +
      "de riesgo minima del ";
    Infix2(lead, Bold(top.student.name), mid, Bold(pct(top.probability)), ".");
    lead + Bold(top.student.name) + mid + Bold(pct(top.probability)) + "."
  }

  /** The heading of the top-five list. */
  const TopFiveHeading: string :=
    "\U{1F4CB} **Top 5 Estudiantes " +
    "que requieren " +
    "intervencion:**\n\n"

  /** Branch 3's text: the heading, then one line per listed record, in the
      order of the entries. */
  function TopFiveText(entries: seq<Scored>, pct: real -> string): (r: string)
    ensures |r| > 0
    ensures r == TopFiveHeading + ListLines(entries, pct)
    ensures forall k :: 0 <= k < |entries| ==> Router.Contains(r, ListLine(entries[k], pct))
  {
    var lead := TopFiveHeading;
    assert |lead| > 0 by {
      assert lead[0] == '\U{1F4CB}';
    }
    forall k | 0 <= k < |entries|
      ensures Router.Contains(lead + ListLines(entries, pct), ListLine(entries[k], pct))
    {
      ListShowsEveryEntry(entries, pct, k);
      Widen(lead, ListLines(entries, pct), "", ListLine(entries[k], pct));
      assert lead + ListLines(entries, pct) + "" == lead + ListLines(entries, pct);
    }
    lead + ListLines(entries, pct)
  }

  /** Branch 4's text: the count, in bold. */
  function CountText(n: nat): (r: string)
    ensures |r| > 0
    ensures Router.Contains(r, Bold(Decimal.Show(n)))
  {
    var lead := "\U{1F4CA} Del total de " +
      "estudiantes evaluados, " +
      "he identificado a ";
    var tail := " que presentan " +
      "indicadores de riesgo " +
      "significativo.";
    Infix(lead, Bold(Decimal.Show(n)), tail);
    lead + Bold(Decimal.Show(n)) + tail
  }

  /** The bold count of factors in branch 5's text. */
  function FactorCount(n: nat): string {
    Bold(Decimal.Show(n) + " factores criticos")
  }

  /** Branch 5's text: the student's name, then the count of factors. */
  function MostIncidentsText(top: Scored, n: nat): (r: string)
    ensures |r| > 0
    ensures Router.Contains(r, Bold(top.student.name))
    ensures Router.Contains(r, FactorCount(n))
  {
    var lead := "\U{26A0}\U{FE0F} El " +
      "estudiante con mas " +
      "factores de incidencia " +
      "acumulados es ";
    var after := " simultaneos (como " +
      "presion alta, " +
      "antecedentes o habitos " +
      "nocivos).";
    Infix2(lead, Bold(top.student.name), ".\nPresenta ", FactorCount(n), after);
    lead + Bold(top.student.name) + ".\nPresenta " + FactorCount(n) + after
  }

  /** The answer text for a reply. */
  function Render(reply: Reply, pct: real -> string): (r: string)
    ensures |r| > 0
  {
    match reply
    case NoCriticalRisk => NoCriticalRiskText()
    case MostAtRisk(top) => MostAtRiskText(top, pct)
    case MostStable(top) => MostStableText(top, pct)
    case NothingToList => NothingToListText()
    case TopFive(entries) => TopFiveText(entries, pct)
    case AtRiskCount(n) => CountText(n)
    case MostIncidents(top, n) => MostIncidentsText(top, n)
    case HelpText => HelpMessage()
  }

  /** A reply about one student shows the student's name in bold; the
      highest-risk reply shows the DNI too, the two risk replies show the
      record's probability in bold, and the incidence reply its factor count. */
  lemma RenderNamesStudent(reply: Reply, pct: real -> string)
    requires reply.MostAtRisk? || reply.MostStable? || reply.MostIncidents?
    ensures Router.Contains(Render(reply, pct), Bold(reply.top.student.name))
    ensures reply.MostAtRisk? ==> Router.Contains(Render(reply, pct), reply.top.student.dni)
    ensures reply.MostAtRisk? || reply.MostStable? ==>
      Router.Contains(Render(reply, pct), Bold(pct(reply.top.probability)))
    ensures reply.MostIncidents? ==> Router.Contains(Render(reply, pct), FactorCount(reply.incidents))
  {
  }

  /** The count reply shows the count in bold. */
  lemma RenderShowsCount(reply: Reply, pct: real -> string)
    requires reply.AtRiskCount?
    ensures Router.Contains(Render(reply, pct), Bold(Decimal.Show(reply.count)))
  {
  }

  /** The list reply is the heading and then every listed record's line, in
      ranking order. */
  lemma RenderListsEntries(reply: Reply, pct: real -> string, k: nat)
    requires reply.TopFive? && k < |reply.entries|
    ensures Render(reply, pct) == TopFiveHeading + ListLines(reply.entries, pct)
    ensures Router.Contains(Render(reply, pct), ListLine(reply.entries[k], pct))
  {
  }
}

=== FILE: risk_form.dfy ===
/** The counsellor's web form (js/script.js, `analyzeStudent`, lines 48-106):
    weighted points from five inputs, then three bands. The inputs are taken as
    already parsed; what `parseInt`/`parseFloat` do with bad text is not modelled. */
module RiskForm {
  import Seqs

  datatype Inputs = Inputs(
    gad7: int,
    gpa: real,
    attendance: real,
    psychHistory: string,
    failedCourses: int)

  /** The five rules, in the order the form tests them. */
  datatype Factor = HighGad | LowGpa | LowAttendance | PsychHistory | FailedCourses

  const Rules: seq<Factor> := [HighGad, LowGpa, LowAttendance, PsychHistory, FailedCourses]

  /** Whether the rule fires. The history radio compares with "yes" exactly. */
  predicate Triggers(inp: Inputs, f: Factor) {
    match f
    case HighGad => inp.gad7 > 10
    case LowGpa => inp.gpa < 11.0
    case LowAttendance => inp.attendance < 85.0
    case PsychHistory => inp.psychHistory == "yes"
    case FailedCourses => inp.failedCourses > 0
  }

  /** What a fired rule adds: fixed points, or five per failed course. */
  function Points(inp: Inputs, f: Factor): int {
    match f
    case HighGad => 50
    case LowGpa => 20
    case LowAttendance => 15
    case PsychHistory => 15
    case FailedCourses => 5 * inp.failedCourses
  }

  /** The list item the form shows for a fired rule. */
  function Description(f: Factor): string {
    match f
    case HighGad => "GAD-7 score above threshold (50 points)"
    case LowGpa => "Low GPA / academic performance (20 points)"
    case LowAttendance => "Low attendance rate (15 points)"
    case PsychHistory => "Previous psychological history (15 points)"
    case FailedCourses => "Failed course count (5 points each)"
  }

  /** The points of the listed rules, added up. */
  function Total(inp: Inputs, fs: seq<Factor>): int {
    if |fs| == 0 then 0 else Points(inp, fs[0]) + Total(inp, fs[1..])
  }

  datatype Level = Low | Moderate | High

  /** Position of a band on the scale, for comparisons. */
  function Severity(l: Level): nat {
    match l
    case Low => 0
    case Moderate => 1
    case High => 2
  }

  /** Above 50 is high, 20 to 50 is moderate, below 20 is low. */
  function Band(score: int): (l: Level)
    ensures l == High <==> score > 50
    ensures l == Moderate <==> 20 <= score <= 50
    ensures l == Low <==> score < 20
  {
    if score > 50 then High else if score >= 20 then Moderate else Low
  }

  /** A higher score is never in a milder band. */
  lemma BandMonotone(s: int, t: int)
    requires s <= t
    ensures Severity(Band(s)) <= Severity(Band(t))
  {
  }

  /** The title and the message the result card shows for a band. */
  function Title(l: Level): string {
    match l
    case High => "HIGH RISK"
    case Moderate => "MODERATE RISK"
    case Low => "LOW RISK"
  }

  function Message(l: Level): string {
    match l
    case High => "HIGH RISK DETECTED. Schedule intervention immediately."
    case Moderate => "MODERATE RISK. Monitor student."
    case Low => "LOW RISK. Standard follow-up."
  }

  /** The card's title names the band the score falls in, and each band has a
      message of its own. */
  lemma CardNamesBand(score: int)
    ensures Title(Band(score)) == "HIGH RISK" <==> score > 50
    ensures Title(Band(score)) == "MODERATE RISK" <==> 20 <= score <= 50
    ensures Title(Band(score)) == "LOW RISK" <==> score < 20
    ensures forall l :: Message(l) == Message(Band(score)) <==> l == Band(score)
  {
    assert "HIGH RISK" != "MODERATE RISK" && "HIGH RISK" != "LOW RISK" && "MODERATE RISK" != "LOW RISK";
    assert Message(Moderate)[0] != Message(Low)[0];
    assert |Message(High)| != |Message(Moderate)| && |Message(High)| != |Message(Low)|;
  }

  datatype Assessment = Assessment(score: int, factors: seq<Factor>, level: Level)

  /** What a rule adds to the score: its points when it fires, else nothing. */
  function Contribution(inp: Inputs, f: Factor): (r: int)
    ensures r >= 0
    ensures r > 0 <==> Triggers(inp, f)
  {
    if Triggers(inp, f) then Points(inp, f) else 0
  }

  /** Every rule is among the five the form tests. */
  lemma EveryRuleListed(f: Factor)
    ensures f in Rules
  {
    match f
    case HighGad => assert Rules[0] == f;
    case LowGpa => assert Rules[1] == f;
    case LowAttendance => assert Rules[2] == f;
    case PsychHistory => assert Rules[3] == f;
    case FailedCourses => assert Rules[4] == f;
  }

  /** The form's `if`s over `rules`, in order: each fired rule adds its points
      to the score and its entry to the factor list. */
  function Run(inp: Inputs, rules: seq<Factor>): (r: (int, seq<Factor>))
    ensures r.1 == Seqs.Filter(rules, f => Triggers(inp, f))
    ensures r.0 == Total(inp, r.1)
    ensures r.0 >= 0
    ensures r.0 == 0 <==> r.1 == []
  {
    if |rules| == 0 then (0, [])
    else
      var rest := Run(inp, rules[1..]);
      var fired := if Triggers(inp, rules[0]) then [rules[0]] else [];
      assert fired + rest.1 == [] ==> !Triggers(inp, rules[0]);
      if Triggers(inp, rules[0]) then
        assert (fired + rest.1)[1..] == rest.1;
        (Contribution(inp, rules[0]) + rest.0, fired + rest.1)
      else
        (Contribution(inp, rules[0]) + rest.0, fired + rest.1)
  }

  /** `analyzeStudent` from the inputs to the score, the list and the band. */
  function Assess(inp: Inputs): (a: Assessment)
    ensures a.factors == Seqs.Filter(Rules, f => Triggers(inp, f))
    ensures forall f :: f in a.factors <==> Triggers(inp, f)
    ensures |a.factors| <= 5
    ensures a.score == Total(inp, a.factors)
    ensures a.score >= 0
    ensures a.score == 0 <==> a.factors == []
    ensures a.level == Band(a.score)
  {
    var r := Run(inp, Rules);
    forall f ensures f in r.1 <==> Triggers(inp, f) {
      Seqs.FilterMembership(Rules, f => Triggers(inp, f), f);
      EveryRuleListed(f);
    }
    Assessment(r.0, r.1, Band(r.0))
  }

  /** The list items the form shows, one per fired rule, in rule order. */
  function FactorList(inp: Inputs): (r: seq<string>)
    ensures var fs := Assess(inp).factors;
      && |r| == |fs| <= 5
      && forall k :: 0 <= k < |r| ==> r[k] == Description(fs[k])
  {
    Descriptions(Assess(inp).factors)
  }

  function Descriptions(fs: seq<Factor>): (r: seq<string>)
    ensures |r| == |fs|
    ensures forall k :: 0 <= k < |r| ==> r[k] == Description(fs[k])
  {
    if |fs| == 0 then [] else [Description(fs[0])] + Descriptions(fs[1..])
  }

  /** The score is the sum of the contributions of `rules`. */
  lemma {:induction false} RunIsSum(inp: Inputs, rules: seq<Factor>)
    ensures Run(inp, rules).0 == Sum(inp, rules)
  {
    if |rules| > 0 {
      RunIsSum(inp, rules[1..]);
    }
  }

  function Sum(inp: Inputs, rules: seq<Factor>): int {
    if |rules| == 0 then 0 else Contribution(inp, rules[0]) + Sum(inp, rules[1..])
  }

  /** The contributions of the five rules, added up. */
  function FiveRules(inp: Inputs): int {
    Contribution(inp, HighGad) + Contribution(inp, LowGpa) + Contribution(inp, LowAttendance)
      + Contribution(inp, PsychHistory) + Contribution(inp, FailedCourses)
  }

  lemma SumOverRules(inp: Inputs)
    ensures Sum(inp, Rules) == FiveRules(inp)
  {
    var r1 := [LowGpa, LowAttendance, PsychHistory, FailedCourses];
    var r2 := [LowAttendance, PsychHistory, FailedCourses];
    var r3 := [PsychHistory, FailedCourses];
    var r4 := [FailedCourses];
    assert Rules[1..] == r1 && r1[1..] == r2 && r2[1..] == r3 && r3[1..] == r4 && r4[1..] == [];
    assert Sum(inp, r4) == Contribution(inp, FailedCourses);
    assert Sum(inp, r3) == Contribution(inp, PsychHistory) + Sum(inp, r4);
    assert Sum(inp, r2) == Contribution(inp, LowAttendance) + Sum(inp, r3);
    assert Sum(inp, r1) == Contribution(inp, LowGpa) + Sum(inp, r2);
  }

  lemma SumOfRules(inp: Inputs)
    ensures Assess(inp).score == FiveRules(inp)
  {
    RunIsSum(inp, Rules);
    SumOverRules(inp);
  }

  /** The anxiety screen alone gives exactly 50, which is moderate, not high. */
  lemma GadAloneIsModerate(inp: Inputs)
    requires Triggers(inp, HighGad)
    requires forall f :: f != HighGad ==> !Triggers(inp, f)
    ensures Assess(inp).score == 50
    ensures Assess(inp).level == Moderate
    ensures Title(Assess(inp).level) == "MODERATE RISK"
  {
    SumOfRules(inp);
    assert !Triggers(inp, LowGpa) && !Triggers(inp, LowAttendance);
    assert !Triggers(inp, PsychHistory) && !Triggers(inp, FailedCourses);
  }

  /** `b` is at least as worrying as `a` on every input. */
  predicate NoBetter(a: Inputs, b: Inputs) {
    && a.gad7 <= b.gad7
    && a.gpa >= b.gpa
    && a.attendance >= b.attendance
    && (a.psychHistory == "yes" ==> b.psychHistory == "yes")
    && a.failedCourses <= b.failedCourses
  }

  /** Worse inputs never lower any rule's contribution. */
  lemma ContributionMonotone(a: Inputs, b: Inputs, f: Factor)
    requires NoBetter(a, b)
    ensures Contribution(a, f) <= Contribution(b, f)
  {
  }

  /** Worse inputs never lower the score or the band. */
  lemma AssessMonotone(a: Inputs, b: Inputs)
    requires NoBetter(a, b)
    ensures Assess(a).score <= Assess(b).score
    ensures Severity(Assess(a).level) <= Severity(Assess(b).level)
  {
    SumOfRules(a);
    SumOfRules(b);
    ContributionMonotone(a, b, HighGad);
    ContributionMonotone(a, b, LowGpa);
    ContributionMonotone(a, b, LowAttendance);
    ContributionMonotone(a, b, PsychHistory);
    ContributionMonotone(a, b, FailedCourses);
    BandMonotone(Assess(a).score, Assess(b).score);
  }
}

=== FILE: router.dfy ===
/** The chat's intent router (app.py, `procesar_pregunta_ia`, lines 37-90): the
    question is lower-cased and tested against five keyword rules in a fixed
    order; the first rule with a keyword occurring in it wins, and a question
    no rule matches gets the help text. */
module Router {
  import opened Wrappers

  datatype Intent = HighestRisk | LowestRisk | RiskList | RiskCount | TopIncidence | Help

  datatype Rule = Rule(keywords: seq<string>, intent: Intent)

  const HighestRule := Rule(["mas riesgoso", "mayor riesgo", "peor caso"], HighestRisk)
  const LowestRule := Rule(["menos riesgoso", "menor riesgo", "mas estable"], LowestRisk)
  const ListRule := Rule(["cuales", "lista", "quienes"], RiskList)
  const CountRule := Rule(["cuantos", "cantidad", "total"], RiskCount)
  const IncidenceRule := Rule(["incidencias", "factores", "mas problemas"], TopIncidence)

  /** The rules in the order the `if`/`elif` chain tests them. */
  const Rules: seq<Rule> := [HighestRule, LowestRule, ListRule, CountRule, IncidenceRule]

  /** `str.lower()` restricted to ASCII letters. */
  function LowerChar(c: char): (r: char)
    ensures !('A' <= r <= 'Z')
    ensures 'a' <= c <= 'z' ==> r == c
    ensures 'A' <= c <= 'Z' ==> 'a' <= r <= 'z' && r as int - c as int == 32
    ensures !('A' <= c <= 'Z') ==> r == c
  {
    if 'A' <= c <= 'Z' then (c as int + 32) as char else c
  }

  function Lower(s: string): (r: string)
    ensures |r| == |s|
    ensures forall i :: 0 <= i < |s| ==> r[i] == LowerChar(s[i])
  {
    seq(|s|, i requires 0 <= i < |s| => LowerChar(s[i]))
  }

  /** Python's `k in s` on strings. */
  predicate Contains(s: string, k: string) {
    exists i :: 0 <= i <= |s| - |k| && OccursAt(s, k, i)
  }

  predicate OccursAt(s: string, k: string, i: nat) {
    i + |k| <= |s| && s[i..i + |k|] == k
  }

  predicate Matches(q: string, rule: Rule) {
    exists w :: w in rule.keywords && Contains(q, w)
  }

  /** The index of the first rule that matches, if any. */
  function FirstRule(q: string, rules: seq<Rule>): (r: Option<nat>)
    ensures r.None? <==> forall k :: 0 <= k < |rules| ==> !Matches(q, rules[k])
    ensures r.Some? ==> r.value < |rules| && Matches(q, rules[r.value])
    ensures r.Some? ==> forall j :: 0 <= j < r.value ==> !Matches(q, rules[j])
  {
    if |rules| == 0 then None
    else if Matches(q, rules[0]) then Some(0)
    else
      match FirstRule(q, rules[1..])
      case None => None
      case Some(k) => Some(k + 1)
  }

  /** The intent of a question: the first matching rule's, or `Help`. */
  function Route(question: string): (r: Intent)
    ensures r == Help <==> forall k :: 0 <= k < |Rules| ==> !Matches(Lower(question), Rules[k])
    ensures r != Help ==>
      exists k :: 0 <= k < |Rules| && Rules[k].intent == r &&
        Matches(Lower(question), Rules[k]) &&
        forall j :: 0 <= j < k ==> !Matches(Lower(question), Rules[j])
  {
    match FirstRule(Lower(question), Rules)
    case None => Help
    case Some(k) => Rules[k].intent
  }

  /** Lower-casing twice changes nothing, so routing is blind to letter case. */
  lemma LowerIdempotent(s: string)
    ensures Lower(Lower(s)) == Lower(s)
  {
  }

  lemma RouteIgnoresCase(question: string)
    ensures Route(Lower(question)) == Route(question)
  {
    LowerIdempotent(question);
  }

  // Showing that a keyword does not occur: some character of it, or some pair of
  // adjacent characters, occurs nowhere in the question.

  lemma AbsentChar(s: string, k: string, j: nat)
    requires j < |k| && k[j] !in s
    ensures !Contains(s, k)
  {

  }

  lemma AbsentPair(s: string, k: string, j: nat)
    requires j + 1 < |k|
    requires forall i :: 0 <= i < |s| - 1 ==> !(s[i] == k[j] && s[i + 1] == k[j + 1])
    ensures !Contains(s, k)
  {
    forall i | 0 <= i <= |s| - |k|
      ensures !OccursAt(s, k, i)
    {
      if OccursAt(s, k, i) {
        OccursAtPair(s, k, i, j);
      }
    }
  }

  lemma OccursAtPair(s: string, k: string, i: nat, j: nat)
    requires OccursAt(s, k, i) && j + 1 < |k|
    ensures s[i + j] == k[j] && s[i + j + 1] == k[j + 1]
  {
    assert s[i..i + |k|][j] == k[j] && s[i..i + |k|][j + 1] == k[j + 1];
  }

  /** The rule that matches first decides the intent. */
  lemma RouteByFirstMatch(question: string, k: nat)
    requires k < |Rules|
    requires Matches(Lower(question), Rules[k])
    requires forall j :: 0 <= j < k ==> !Matches(Lower(question), Rules[j])
    ensures Route(question) == Rules[k].intent
  {
    var r := FirstRule(Lower(question), Rules);
    assert r.Some? && !(r.value < k) && !(r.value > k);
  }

  lemma RouteMostAtRisk()
    ensures Route("¿Quien es el mas riesgoso?") == HighestRisk
  {
    var q := Lower("¿Quien es el mas riesgoso?");
    assert q == "¿quien es el mas riesgoso?";
    assert OccursAt(q, "mas riesgoso", 13);
    assert "mas riesgoso" in HighestRule.keywords;
    RouteByFirstMatch("¿Quien es el mas riesgoso?", 0);
  }

  // "¿cuantos alumnos estan en riesgo?" against the first three rules, one
  // keyword at a time. One small lemma per keyword keeps each proof within the
  // verifier's resource limit; a single lemma over all of them does not.

  const CountQuestion := "¿cuantos alumnos estan en riesgo?"

  lemma CountQuestionLacksMasRiesgoso() ensures !Contains(CountQuestion, "mas riesgoso") {
    AbsentPair(CountQuestion, "mas riesgoso", 0);
  }
  lemma CountQuestionLacksMayorRiesgo() ensures !Contains(CountQuestion, "mayor riesgo") {
    AbsentPair(CountQuestion, "mayor riesgo", 0);
  }
  lemma CountQuestionLacksPeorCaso() ensures !Contains(CountQuestion, "peor caso") {
    AbsentChar(CountQuestion, "peor caso", 0);
  }
  lemma CountQuestionLacksMenosRiesgoso() ensures !Contains(CountQuestion, "menos riesgoso") {
    AbsentPair(CountQuestion, "menos riesgoso", 0);
  }
  lemma CountQuestionLacksMenorRiesgo() ensures !Contains(CountQuestion, "menor riesgo") {
    AbsentPair(CountQuestion, "menor riesgo", 0);
  }
  lemma CountQuestionLacksMasEstable() ensures !Contains(CountQuestion, "mas estable") {
    AbsentPair(CountQuestion, "mas estable", 0);
  }
  lemma CountQuestionLacksCuales() ensures !Contains(CountQuestion, "cuales") {
    AbsentPair(CountQuestion, "cuales", 3);
  }
  lemma CountQuestionLacksLista() ensures !Contains(CountQuestion, "lista") {
    AbsentPair(CountQuestion, "lista", 0);
  }
  lemma CountQuestionLacksQuienes() ensures !Contains(CountQuestion, "quienes") {
    AbsentChar(CountQuestion, "quienes", 0);
  }

  lemma CountQuestionMissesFirstRules()
    ensures !Matches(CountQuestion, HighestRule)
    ensures !Matches(CountQuestion, LowestRule)
    ensures !Matches(CountQuestion, ListRule)
  {
    CountQuestionLacksMasRiesgoso();
    CountQuestionLacksMayorRiesgo();
    CountQuestionLacksPeorCaso();
    CountQuestionLacksMenosRiesgoso();
    CountQuestionLacksMenorRiesgo();
    CountQuestionLacksMasEstable();
    CountQuestionLacksCuales();
    CountQuestionLacksLista();
    CountQuestionLacksQuienes();
  }

  lemma CountQuestionHitsCountRule()
    ensures Matches(CountQuestion, CountRule)
  {
    assert CountQuestion[1..8] == "cuantos" by {
      assert CountQuestion[1] == 'c' && CountQuestion[2] == 'u' && CountQuestion[3] == 'a';
      assert CountQuestion[4] == 'n' && CountQuestion[5] == 't' && CountQuestion[6] == 'o';
      assert CountQuestion[7] == 's';
    }
    assert OccursAt(CountQuestion, "cuantos", 1);
    assert "cuantos" in CountRule.keywords;
  }

  lemma LowerCountQuestion()
    ensures Lower("¿Cuantos alumnos estan en riesgo?") == CountQuestion
  {
  }

  lemma RouteCount()
    ensures Route("¿Cuantos alumnos estan en riesgo?") == RiskCount
  {
    LowerCountQuestion();
    CountQuestionMissesFirstRules();
    CountQuestionHitsCountRule();
    assert Rules[0] == HighestRule && Rules[1] == LowestRule && Rules[2] == ListRule && Rules[3] == CountRule;
    forall j | 0 <= j < 3
      ensures !Matches(CountQuestion, Rules[j])
    {
      assert j == 0 || j == 1 || j == 2;
    }
    RouteByFirstMatch("¿Cuantos alumnos estan en riesgo?", 3);
  }

  /** A question shorter than every keyword of a rule cannot match it. */
  lemma NoKeywordFits(q: string, rule: Rule)
    requires forall w :: w in rule.keywords ==> |q| < |w|
    ensures !Matches(q, rule)
  {
  }

  /** Every keyword has at least five characters. */
  lemma ShortQuestionMissesRules(q: string)
    requires |q| < 5
    ensures forall k :: 0 <= k < |Rules| ==> !Matches(q, Rules[k])
  {
    forall k | 0 <= k < |Rules|
      ensures !Matches(q, Rules[k])
    {
      var rule := Rules[k];
      assert rule == Rules[0] || rule == Rules[1] || rule == Rules[2] || rule == Rules[3] || rule == Rules[4];
      NoKeywordFits(q, rule);
    }
  }

  /** A greeting matches no rule, since every keyword is longer than it. */
  lemma RouteGreeting()
    ensures Route("hola") == Help
  {
    ShortQuestionMissesRules(Lower("hola"));
  }

  // "¿quienes tienen mas incidencias?" against the first two rules, one
  // keyword at a time.

  const IncidenceQuestion := "¿quienes tienen mas incidencias?"

  lemma IncidenceQuestionLacksMasRiesgoso() ensures !Contains(IncidenceQuestion, "mas riesgoso") {
    AbsentChar(IncidenceQuestion, "mas riesgoso", 4);
  }
  lemma IncidenceQuestionLacksMayorRiesgo() ensures !Contains(IncidenceQuestion, "mayor riesgo") {
    AbsentChar(IncidenceQuestion, "mayor riesgo", 2);
  }
  lemma IncidenceQuestionLacksPeorCaso() ensures !Contains(IncidenceQuestion, "peor caso") {
    AbsentChar(IncidenceQuestion, "peor caso", 0);
  }
  lemma IncidenceQuestionLacksMenosRiesgoso() ensures !Contains(IncidenceQuestion, "menos riesgoso") {
    AbsentChar(IncidenceQuestion, "menos riesgoso", 6);
  }
  lemma IncidenceQuestionLacksMenorRiesgo() ensures !Contains(IncidenceQuestion, "menor riesgo") {
    AbsentChar(IncidenceQuestion, "menor riesgo", 4);
  }
  lemma IncidenceQuestionLacksMasEstable() ensures !Contains(IncidenceQuestion, "mas estable") {
    AbsentChar(IncidenceQuestion, "mas estable", 8);
  }

  lemma IncidenceQuestionMissesFirstRules()
    ensures !Matches(IncidenceQuestion, HighestRule)
    ensures !Matches(IncidenceQuestion, LowestRule)
  {
    IncidenceQuestionLacksMasRiesgoso();
    IncidenceQuestionLacksMayorRiesgo();
    IncidenceQuestionLacksPeorCaso();
    IncidenceQuestionLacksMenosRiesgoso();
    IncidenceQuestionLacksMenorRiesgo();
    IncidenceQuestionLacksMasEstable();
  }

  lemma IncidenceQuestionHitsListRule()
    ensures Matches(IncidenceQuestion, ListRule)
  {
    assert IncidenceQuestion[1..8] == "quienes" by {
      assert IncidenceQuestion[1] == 'q' && IncidenceQuestion[2] == 'u' && IncidenceQuestion[3] == 'i';
      assert IncidenceQuestion[4] == 'e' && IncidenceQuestion[5] == 'n' && IncidenceQuestion[6] == 'e';
      assert IncidenceQuestion[7] == 's';
    }
    assert OccursAt(IncidenceQuestion, "quienes", 1);
    assert "quienes" in ListRule.keywords;
  }

  lemma IncidenceQuestionHitsIncidenceRule()
    ensures Matches(IncidenceQuestion, IncidenceRule)
  {
    assert forall j :: 0 <= j < 11 ==> IncidenceQuestion[20..31][j] == "incidencias"[j];
    assert OccursAt(IncidenceQuestion, "incidencias", 20);
    assert "incidencias" in IncidenceRule.keywords;
  }

  lemma LowerIncidenceQuestion()
    ensures Lower("¿Quienes tienen mas incidencias?") == IncidenceQuestion
  {
  }

  /** The help text's own "¿Quienes tienen mas incidencias?" lands on the list
      rule, which is tested before the incidence rule it also matches. */
  lemma RouteListBeforeIncidence()
    ensures Route("¿Quienes tienen mas incidencias?") == RiskList
    ensures Matches(Lower("¿Quienes tienen mas incidencias?"), IncidenceRule)
  {
    LowerIncidenceQuestion();
    IncidenceQuestionMissesFirstRules();
    IncidenceQuestionHitsListRule();
    IncidenceQuestionHitsIncidenceRule();
    assert Rules[0] == HighestRule && Rules[1] == LowestRule && Rules[2] == ListRule;
    forall j | 0 <= j < 2
      ensures !Matches(IncidenceQuestion, Rules[j])
    {
      assert j == 0 || j == 1;
    }
    RouteByFirstMatch("¿Quienes tienen mas incidencias?", 2);
  }
}

=== FILE: schema.dfy ===
/** The columns of the student-depression table that the scripts read, and the
    header text each one carries in the CSV files. Columns the core never reads
    (identifiers, city, degree, ...) are not represented. */
module Schema {

  datatype Column =
    | Gender | Age | AcademicPressure | Cgpa | StudySatisfaction | SleepDuration
    | DietaryHabits | SuicidalThoughts | WorkStudyHours | FinancialStress
    | FamilyHistory | Profession | Depression

  function Header(c: Column): string {
    match c
    case Gender => "Gender"
    case Age => "Age"
    case AcademicPressure => "Academic Pressure"
    case Cgpa => "CGPA"
    case StudySatisfaction => "Study Satisfaction"
    case SleepDuration => "Sleep Duration"
    case DietaryHabits => "Dietary Habits"
    case SuicidalThoughts => "Have you ever had suicidal thoughts ?"
    case WorkStudyHours => "Work/Study Hours"
    case FinancialStress => "Financial Stress"
    case FamilyHistory => "Family History of Mental Illness"
    case Profession => "Profession"
    case Depression => "Depression"
  }

  /** Header names of a column list, as the classifier records them when fitted. */
  function Headers(cols: seq<Column>): (r: seq<string>)
    ensures |r| == |cols|
    ensures forall i :: 0 <= i < |cols| ==> r[i] == Header(cols[i])
  {
    if |cols| == 0 then [] else [Header(cols[0])] + Headers(cols[1..])
  }
}

=== FILE: scoring.dfy ===
/** Roster scoring (app.py, lines 138-144): encode every record and attach the
    classifier's label and class-1 probability. The classifier is opaque: it
    is the list of column names it was fitted with plus a prediction function. */
module Scoring {
  import opened Wrappers
  import opened Schema
  import opened Frame
  import Pipeline
  import InferenceCodec
  import Training
  import CodecAgreement

  type Probability = p: real | 0.0 <= p <= 1.0

  /** 1 marks a record as at risk. */
  type Label = l: int | 0 <= l <= 1

  datatype Prediction = Prediction(diagnosis: Label, probability: Probability)

  /** `predict` and `predict_proba(...)[:, 1]` of the fitted forest on one vector,
      and the feature names it recorded when it was fitted. */
  datatype Classifier = Classifier(featureNames: seq<string>, predict: seq<real> -> Prediction)

  /** One roster row: DNI, full name, and the raw columns the codec reads. */
  datatype Student = Student(dni: string, name: string, row: Row)

  datatype Scored = Scored(student: Student, diagnosis: Label, probability: Probability)

  datatype ScoreError = SchemaMismatch | NoSamples | Unencodable(cause: CodecError)

  predicate Encodable(s: Student) {
    Pipeline.Encodable(InferenceCodec.Recipe, s.row)
  }

  /** The classifier's verdict on one record that encodes. */
  function Verdict(model: Classifier, s: Student): Prediction
    requires Encodable(s)
  {
    model.predict(InferenceCodec.Encode(s.row).value)
  }

  predicate AllEncodable(roster: seq<Student>) {
    forall i :: 0 <= i < |roster| ==> Encodable(roster[i])
  }

  /** A record with its own verdict attached. */
  function Annotation(model: Classifier, s: Student): (x: Scored)
    requires Encodable(s)
    ensures x.student == s
  {
    var p := Verdict(model, s);
    Scored(s, p.diagnosis, p.probability)
  }

  /** `scored` is `roster` in order, each record with its own verdict. */
  predicate Annotates(model: Classifier, roster: seq<Student>, scored: seq<Scored>) {
    && |scored| == |roster|
    && forall i :: 0 <= i < |roster| ==>
      Encodable(roster[i]) && scored[i] == Annotation(model, roster[i])
  }

  lemma AllEncodableCons(roster: seq<Student>)
    requires |roster| > 0
    ensures AllEncodable(roster) <==> Encodable(roster[0]) && AllEncodable(roster[1..])
  {
    if Encodable(roster[0]) && AllEncodable(roster[1..]) {
      forall i | 0 < i < |roster| ensures Encodable(roster[i]) {
        assert roster[i] == roster[1..][i - 1];
      }
    }
  }

  lemma AnnotatesCons(model: Classifier, roster: seq<Student>, rest: seq<Scored>)
    requires |roster| > 0 && Encodable(roster[0])
    requires Annotates(model, roster[1..], rest)
    ensures Annotates(model, roster, [Annotation(model, roster[0])] + rest)
  {
    var r := [Annotation(model, roster[0])] + rest;
    forall i | 0 < i < |roster|
      ensures Encodable(roster[i]) && r[i] == Annotation(model, roster[i])
    {
      assert r[i] == rest[i - 1] && roster[i] == roster[1..][i - 1];
    }
  }

  /** Column `c` is a column of the roster: every record carries it. */
  predicate HasColumn(roster: seq<Student>, c: Column) {
    forall i :: 0 <= i < |roster| ==> c in roster[i].row
  }

  lemma HasColumnCons(roster: seq<Student>)
    requires |roster| > 0
    ensures forall c :: HasColumn(roster, c) <==> c in roster[0].row && HasColumn(roster[1..], c)
  {
    forall c | c in roster[0].row && HasColumn(roster[1..], c) ensures HasColumn(roster, c) {
      forall i | 0 < i < |roster| ensures c in roster[i].row {
        assert roster[i] == roster[1..][i - 1];
      }
    }
  }

  /** A roster lacking a column it reads holds a record that does not encode. */
  lemma AbsentColumnUnencodable(roster: seq<Student>)
    requires FirstAbsent(roster, ReadOrder).Some?
    ensures !AllEncodable(roster)
  {
    var c := FirstAbsent(roster, ReadOrder).value;
    var k :| 0 <= k < |ReadOrder| && ReadOrder[k] == c;
    if k >= 5 {
      assert c == InferenceCodec.FeatureColumns[k - 5];
    }
    var i :| 0 <= i < |roster| && c !in roster[i].row;
    assert !Encodable(roster[i]);
  }

  /** With every column of the read order present, scoring a record fails
      only on a cell that is not a number. */
  lemma OnlyNotNumericLeft(roster: seq<Student>, model: Classifier)
    requires FirstAbsent(roster, ReadOrder).None?
    requires ScoreRows(roster, model).Failure?
    ensures ScoreRows(roster, model).error.NotNumeric?
  {
    FeaturesPresent(roster);
  }

  /** Every feature column is in the read order, so none is missing when
      nothing in the read order is. */
  lemma FeaturesPresent(roster: seq<Student>)
    requires FirstAbsent(roster, ReadOrder).None?
    ensures forall c :: c in InferenceCodec.FeatureColumns ==> HasColumn(roster, c)
  {
    forall c | c in InferenceCodec.FeatureColumns ensures HasColumn(roster, c) {
      var k :| 0 <= k < |InferenceCodec.FeatureColumns| && InferenceCodec.FeatureColumns[k] == c;
      assert ReadOrder[5 + k] == c;
    }
  }

  /** The order in which the dashboard first reads each column:
      `preprocesar_datos` looks up the five rewritten columns, then
      `df_modelo[cols_modelo]` selects the features. */
  const ReadOrder: seq<Column> :=
    [SleepDuration, DietaryHabits, SuicidalThoughts, FamilyHistory, Gender] + InferenceCodec.FeatureColumns

  /** The first column of `cols` that the roster lacks: the one whose lookup
      raises KeyError. */
  function FirstAbsent(roster: seq<Student>, cols: seq<Column>): (r: Option<Column>)
    ensures r.None? <==> forall k :: 0 <= k < |cols| ==> HasColumn(roster, cols[k])
    ensures r.Some? ==> exists k ::
      && 0 <= k < |cols| && cols[k] == r.value
      && !HasColumn(roster, r.value)
      && forall j :: 0 <= j < k ==> HasColumn(roster, cols[j])
  {
    if |cols| == 0 then None
    else if !HasColumn(roster, cols[0]) then Some(cols[0])
    else
      var r := FirstAbsent(roster, cols[1..]);
      assert forall k :: 0 < k < |cols| ==> cols[k] == cols[1..][k - 1];
      r
  }

  /** Score each record in turn; the first record that does not encode aborts.
      A record that lacks a column fails on that column. */
  function ScoreRows(roster: seq<Student>, model: Classifier): (r: Result<seq<Scored>, CodecError>)
    ensures r.Success? <==> AllEncodable(roster)
    ensures r.Success? ==> Annotates(model, roster, r.value)
    ensures r.Failure? && r.error.MissingColumn? ==>
      r.error.column in InferenceCodec.FeatureColumns && !HasColumn(roster, r.error.column)
  {
    if |roster| == 0 then Success([])
    else
      AllEncodableCons(roster);
      HasColumnCons(roster);
      var v :- InferenceCodec.Encode(roster[0].row);
      var rest :- ScoreRows(roster[1..], model);
      var p := model.predict(v);
      var x := Scored(roster[0], p.diagnosis, p.probability);
      AnnotatesCons(model, roster, rest);
      Success([x] + rest)
  }

  /** The whole roster or nothing, failing at the first of the dashboard's
      steps that raises: a column lookup in preprocessing or selection
      (KeyError), then the classifier's feature-name check, its empty-input
      check, and its conversion of the matrix to numbers. No partial
      annotation is returned. */
  function Score(roster: seq<Student>, model: Classifier): (r: Result<seq<Scored>, ScoreError>)
    ensures r.Success? <==>
      && model.featureNames == Headers(InferenceCodec.FeatureColumns)
      && |roster| > 0
      && AllEncodable(roster)
    ensures r.Success? ==> Annotates(model, roster, r.value)
    ensures FirstAbsent(roster, ReadOrder).Some? ==>
      r == Failure(Unencodable(MissingColumn(FirstAbsent(roster, ReadOrder).value)))
    ensures FirstAbsent(roster, ReadOrder).None? && model.featureNames != Headers(InferenceCodec.FeatureColumns) ==>
      r == Failure(SchemaMismatch)
    ensures FirstAbsent(roster, ReadOrder).None? && model.featureNames == Headers(InferenceCodec.FeatureColumns) ==>
      (|roster| == 0 ==> r == Failure(NoSamples))
      && (r.Failure? && |roster| > 0 ==> r.error.Unencodable? && r.error.cause.NotNumeric?)
  {
    var absent := FirstAbsent(roster, ReadOrder);
    if absent.Some? then
      AbsentColumnUnencodable(roster);
      Failure(Unencodable(MissingColumn(absent.value)))
    else if model.featureNames != Headers(InferenceCodec.FeatureColumns) then Failure(SchemaMismatch)
    else if |roster| == 0 then Failure(NoSamples)
    else
      match ScoreRows(roster, model)
      case Success(scored) => Success(scored)
      case Failure(e) =>
        OnlyNotNumericLeft(roster, model);
        Failure(Unencodable(e))
  }

  /** A forest fitted on the training matrix is never rejected for its schema. */
  lemma FittedForestAccepted(roster: seq<Student>, model: Classifier)
    requires model.featureNames == Headers(Training.Features)
    ensures Score(roster, model).Success? <==> |roster| > 0 && AllEncodable(roster)
  {
    CodecAgreement.FeatureNamesAgree();
  }

  /** The raw columns the incidence query reads, present, with a numeric or
      NaN academic pressure. */
  predicate Queryable(row: Row) {
    && SuicidalThoughts in row && FamilyHistory in row && DietaryHabits in row
    && AcademicPressure in row && !row[AcademicPressure].Text?
  }

  lemma EncodableIsQueryable(s: Student)
    requires Encodable(s)
    ensures Queryable(s.row)
  {
    assert AcademicPressure in InferenceCodec.FeatureColumns;
  }

  /** A scored roster is non-empty and every row can be asked the incidence query. */
  lemma ScoredRowsAreQueryable(roster: seq<Student>, model: Classifier)
    requires Score(roster, model).Success?
    ensures |Score(roster, model).value| > 0
    ensures forall i :: 0 <= i < |Score(roster, model).value| ==>
      Queryable(Score(roster, model).value[i].student.row)
  {
    var scored := Score(roster, model).value;
    forall i | 0 <= i < |scored|
      ensures Queryable(scored[i].student.row)
    {
      assert scored[i].student == roster[i];
      EncodableIsQueryable(roster[i]);
    }
  }
}

=== FILE: seqs.dfy ===
/** Sequence helpers the roster queries are built from: a filter that keeps
    order, extremum selection by a key, and a descending sort by a key. */
module Seqs {

  /** Keep the elements satisfying `p`, in their original order. */
  function Filter<T(!new)>(xs: seq<T>, p: T -> bool): (r: seq<T>)
    ensures |r| <= |xs|
    ensures forall x :: multiset(r)[x] == if p(x) then multiset(xs)[x] else 0
  {
    if |xs| == 0 then []
    else
      assert xs == [xs[0]] + xs[1..];
      if p(xs[0]) then [xs[0]] + Filter(xs[1..], p) else Filter(xs[1..], p)
  }

  lemma FilterMembership<T(!new)>(xs: seq<T>, p: T -> bool, x: T)
    ensures x in Filter(xs, p) <==> x in xs && p(x)
  {
    assert x in Filter(xs, p) <==> multiset(Filter(xs, p))[x] > 0;
    assert x in xs <==> multiset(xs)[x] > 0;
  }

  /** Filtering commutes with concatenation, so the kept elements stay in the
      order they had. */
  lemma {:induction false} FilterConcat<T(!new)>(a: seq<T>, b: seq<T>, p: T -> bool)
    ensures Filter(a + b, p) == Filter(a, p) + Filter(b, p)
  {
    if |a| == 0 {
      assert a + b == b;
    } else {
      assert (a + b)[1..] == a[1..] + b;
      FilterConcat(a[1..], b, p);
    }
  }

  /** A non-empty sequence is its front followed by its last element. */
  lemma SplitLast<T>(xs: seq<T>)
    requires |xs| > 0
    ensures xs == xs[..|xs| - 1] + [xs[|xs| - 1]]
  {
  }

  /** Filtering a sequence grown by one element. */
  lemma FilterSnoc<T(!new)>(xs: seq<T>, x: T, p: T -> bool)
    ensures Filter(xs + [x], p) == Filter(xs, p) + (if p(x) then [x] else [])
  {
    FilterConcat(xs, [x], p);
    assert [x][1..] == [];
  }

  /** An index whose key is no smaller than any other. */
  function ArgMax<T>(xs: seq<T>, key: T -> real): (i: nat)
    requires |xs| > 0
    ensures i < |xs|
    ensures forall j :: 0 <= j < |xs| ==> key(xs[j]) <= key(xs[i])
  {
    if |xs| == 1 then 0
    else
      var k := ArgMax(xs[1..], key) + 1;
      if key(xs[0]) >= key(xs[k]) then 0 else k
  }

  /** An index whose key is no larger than any other. */
  function ArgMin<T>(xs: seq<T>, key: T -> real): (i: nat)
    requires |xs| > 0
    ensures i < |xs|
    ensures forall j :: 0 <= j < |xs| ==> key(xs[i]) <= key(xs[j])
  {
    if |xs| == 1 then 0
    else
      var k := ArgMin(xs[1..], key) + 1;
      if key(xs[0]) <= key(xs[k]) then 0 else k
  }

  ghost predicate SortedDesc<T>(xs: seq<T>, key: T -> real) {
    forall i, j :: 0 <= i < j < |xs| ==> key(xs[i]) >= key(xs[j])
  }

  /** Insert `x` into a descending sequence, before the first smaller key. */
  function Insert<T>(x: T, xs: seq<T>, key: T -> real): (r: seq<T>)
    requires SortedDesc(xs, key)
    ensures SortedDesc(r, key)
    ensures multiset(r) == multiset(xs) + multiset{x}
    ensures |r| == |xs| + 1
    ensures r[0] == x || (|xs| > 0 && r[0] == xs[0])
  {
    if |xs| == 0 then [x]
    else if key(x) >= key(xs[0]) then
      ConsSorted(x, xs, key);
      [x] + xs
    else
      assert xs == [xs[0]] + xs[1..];
      var rest := Insert(x, xs[1..], key);
      ConsSorted(xs[0], rest, key);
      [xs[0]] + rest
  }

  /** Putting a key no smaller than the head in front keeps the order. */
  lemma ConsSorted<T>(x: T, xs: seq<T>, key: T -> real)
    requires SortedDesc(xs, key)
    requires |xs| > 0 ==> key(x) >= key(xs[0])
    ensures SortedDesc([x] + xs, key)
  {
    var r := [x] + xs;
    forall i, j | 0 <= i < j < |r|
      ensures key(r[i]) >= key(r[j])
    {
      if i > 0 {
        assert r[i] == xs[i - 1] && r[j] == xs[j - 1];
      } else if j > 1 {
        assert r[j] == xs[j - 1];
      }
    }
  }

  /** Sort by non-increasing key; the result is a permutation of the input. */
  function SortDesc<T>(xs: seq<T>, key: T -> real): (r: seq<T>)
    ensures SortedDesc(r, key)
    ensures multiset(r) == multiset(xs)
    ensures |r| == |xs|
  {
    if |xs| == 0 then []
    else
      assert xs == [xs[0]] + xs[1..];
      Insert(xs[0], SortDesc(xs[1..], key), key)
  }

  /** A sequence's elements are those of its first `k` and of the rest. */
  lemma SplitMultiset<T>(s: seq<T>, k: nat)
    requires k <= |s|
    ensures multiset(s) == multiset(s[..k]) + multiset(s[k..])
  {
    assert s == s[..k] + s[k..];
  }

  /** In a descending sequence, whatever is left after the first `k` has a key
      no larger than the k-th. */
  lemma PrefixDominates<T>(s: seq<T>, k: nat, key: T -> real)
    requires SortedDesc(s, key)
    requires 0 < k <= |s|
    ensures forall x :: x in multiset(s) - multiset(s[..k]) ==> key(x) <= key(s[k - 1])
  {
    assert s == s[..k] + s[k..];
    assert multiset(s) - multiset(s[..k]) == multiset(s[k..]);
    forall x | x in multiset(s[k..])
      ensures key(x) <= key(s[k - 1])
    {
      var j :| 0 <= j < |s[k..]| && s[k..][j] == x;
      assert s[k + j] == x;
    }
  }
}

=== FILE: synthetic_label.dfy ===
/** The rule that labels the simulated students (py/dataset.py, `asignar_riesgo`,
    lines 28-36): 5, 3, 2 and 2 points for four threshold tests, label 1 from 5
    points up. */
module SyntheticLabel {

  datatype Record = Record(gad7: int, psychHistory: int, average: real, tardies: int)

  /** The four tests, in the order the rule makes them. */
  datatype Tests = Tests(highGad: bool, history: bool, lowAverage: bool, manyTardies: bool)

  function TestsOf(r: Record): Tests {
    Tests(r.gad7 >= 10, r.psychHistory == 1, r.average < 11.0, r.tardies > 8)
  }

  function Weight(passed: bool, points: nat): nat {
    if passed then points else 0
  }

  /** The internal score. */
  function Score(t: Tests): (s: nat)
    ensures s <= 12
    ensures t.highGad ==> s >= 5
    ensures !t.highGad ==> s <= 7
  {
    Weight(t.highGad, 5) + Weight(t.history, 3) + Weight(t.lowAverage, 2) + Weight(t.manyTardies, 2)
  }

  /** `1 if score >= 5 else 0`. */
  function LabelOf(t: Tests): (l: nat)
    ensures l == 0 || l == 1
  {
    if Score(t) >= 5 then 1 else 0
  }

  function Label(r: Record): (l: nat)
    ensures l == 0 || l == 1
  {
    LabelOf(TestsOf(r))
  }

  /** The threshold, restated without points: label 1 exactly when the anxiety
      screen is high, or there is a history together with a low average or
      many tardies. */
  lemma LabelRule(t: Tests)
    ensures LabelOf(t) == 1 <==> t.highGad || (t.history && (t.lowAverage || t.manyTardies))
  {
  }

  /** A screen of 10 or more is enough on its own. */
  lemma HighGadForcesRisk(r: Record)
    requires r.gad7 >= 10
    ensures Label(r) == 1
  {
  }

  /** Low average and many tardies without a history add up to 4, below the bar. */
  lemma AcademicSignalsAloneAreNotEnough(r: Record)
    requires r.gad7 < 10 && r.psychHistory != 1
    requires r.average < 11.0 && r.tardies > 8
    ensures Score(TestsOf(r)) == 4
    ensures Label(r) == 0
  {
  }

  /** Every test of `a` that passes also passes in `b`. */
  predicate Weaker(a: Tests, b: Tests) {
    && (a.highGad ==> b.highGad)
    && (a.history ==> b.history)
    && (a.lowAverage ==> b.lowAverage)
    && (a.manyTardies ==> b.manyTardies)
  }

  /** Passing more tests never lowers the score or the label. */
  lemma LabelMonotone(a: Tests, b: Tests)
    requires Weaker(a, b)
    ensures Score(a) <= Score(b)
    ensures LabelOf(a) <= LabelOf(b)
  {
  }
}

=== FILE: training.dfy ===
/** The training script's preprocessing (entrenar_modelo.py): the Student filter,
    its own copy of the label tables, the binary and gender encodings, the
    median fill and the feature list the forest is fitted on. */
module Training {
  import opened Wrappers
  import opened Schema
  import opened Frame
  import Pipeline

  const SleepMap: map<string, real> :=
    map["Less than 5 hours" := 4.0, "5-6 hours" := 5.5, "7-8 hours" := 7.5,
        "More than 8 hours" := 9.0, "Others" := 6.0]

  const DietMap: map<string, real> :=
    map["Healthy" := 3.0, "Moderate" := 2.0, "Unhealthy" := 1.0, "Others" := 2.0]

  const Features: seq<Column> :=
    [Gender, Age, AcademicPressure, Cgpa, StudySatisfaction, SleepDuration,
     DietaryHabits, SuicidalThoughts, WorkStudyHours, FinancialStress, FamilyHistory]

  const Recipe := Pipeline.Recipe(SleepMap, DietMap, "Yes", "Male", Features)

  /** One training row to its feature vector; `median` is the per-column median
      of the filtered table, computed by pandas and taken here as given. */
  function Encode(row: Row, median: Column -> real): (r: Result<seq<real>, CodecError>)
    ensures r.Success? <==> Pipeline.Encodable(Recipe, row)
    ensures r.Success? ==> |r.value| == 11
    ensures r.Success? ==> forall i :: 0 <= i < 11 ==>
      r.value[i] == Pipeline.Feature(Recipe, row, median, Features[i])
  {
    Pipeline.Encode(Recipe, row, median)
  }

  /** The matrix `X` the forest is fitted on: one 11-column vector per Student row. */
  function Matrix(rows: seq<Row>, median: Column -> real): (r: Result<seq<seq<real>>, CodecError>)
    ensures Pipeline.StudentsOnly(rows).Failure? ==> r == Failure(MissingColumn(Profession))
    ensures r.Success? <==> (Pipeline.StudentsOnly(rows).Success? &&
      forall i :: 0 <= i < |Pipeline.StudentsOnly(rows).value| ==>
        Pipeline.Encodable(Recipe, Pipeline.StudentsOnly(rows).value[i]))
    ensures r.Success? ==> |r.value| == |Pipeline.StudentsOnly(rows).value|
    ensures r.Success? ==> forall i :: 0 <= i < |r.value| ==>
      r.value[i] == Encode(Pipeline.StudentsOnly(rows).value[i], median).value
    ensures r.Success? ==> forall v :: v in r.value ==> |v| == 11
  {
    Pipeline.FeatureMatrix(Recipe, rows, median)
  }
}

=== FILE: wrappers.dfy ===
/** Failure-compatible result types shared by every module of the model.
    `Result` stands for a Python call that either returns a value or raises. */
module Wrappers {

  datatype Option<+T> = None | Some(value: T)

  datatype Result<+R, +E> = Success(value: R) | Failure(error: E) {

    predicate IsFailure() {
      Failure?
    }

    function PropagateFailure<U>(): Result<U, E>
      requires Failure?
    {
      Failure(error)
    }

    function Extract(): R
      requires Success?
    {
      value
    }
  }
}
